=== FILE: README.md ===
# cordova-plugin-ibeacon, modelled in Dafny

This project models the core of the Cordova iBeacon plugin and proves properties of the model. The core is:

- the JavaScript region classes `Region`, `CircularRegion` and `BeaconRegion`, with their argument checks;
- `Regions`, which decodes the plain objects the native layer sends back into region instances, and the region type guards;
- `Delegate`: its static pre-processors, its nine default handlers and `safeTraceLogging`;
- the `LocationManager` facade. It is a state `Manager(delegate, registrationResolved, trace)` with one pure transition per public operation. The trace records, in order:
  - every native request, with enough about its callbacks to say what a reply does. The `appendToDeviceLog` request that `_onDelegateCallback` makes to dump each callback is a separate `DumpCallback` entry, and `Bridge.Requests` does not count it among the requests;
  - the console complaints of the facade, of `Delegate.safeTraceLogging` and of the delegate routing. The complaint of `Regions.fromJson` about an unknown type name is not traced; its `None` result marks that case;
  - every call of a delegate handler;
- the legacy `ibeacon.js` API: the `CLBeaconRegion` model object, its field checks, and the single and batch wrappers;
- the pure helpers of the Android `LocationManager` class:
  - action dispatch;
  - region parsing and serialisation;
  - the names of region states and proximities;
  - the Bluetooth state switch;
  - the device log.

A cross-layer module puts the two halves side by side. It shows:

- every request the facade sends is an action Android dispatches;
- what Android serialises is decoded on the JavaScript side exactly when the JavaScript constructor accepts it;
- a region JavaScript builds may still be refused by Android;
- Android raises a failure event that the JavaScript delegate has no handler for.

JavaScript values form one datatype, `JsValues.JsValue`. `instanceof` is answered by the variant tag. Finite numbers are exact reals, next to NaN and the two infinities. Exceptions record their kind (`TypeError` or `Error`) and the throw site, so the order of the checks can be observed.

`_.isFinite` coerces its argument. The model therefore accepts a decimal string such as "35387" as a major, which is the form in which Android sends identifiers.

Files: `wrappers.dfy`, `decimal.dfy`, `js_values.dfy`, `js_errors.dfy`, `uuid_pattern.dfy`, `region.dfy`, `circular_region.dfy`, `beacon_region.dfy`, `regions.dfy`, `bridge.dfy`, `delegate.dfy`, `location_manager.dfy`, `ibeacon.dfy`, `android.dfy`, `interop.dfy`.

## Model

| member | source | states |
|---|---|---|
| BaseRegion.CheckIdentifier | www/model/Region.js:35-42 | Accepts exactly the non-empty strings and hands the identifier back. A non-string is a TypeError. The empty string is a plain Error. |
| BaseRegion.NewRegion | www/model/Region.js:30-33 | A base region exists exactly for a valid identifier and stores it unchanged. Otherwise it fails with the kind of error the check raises. |
| CircularRegions.CheckLatitude | www/model/CircularRegion.js:99-110 | Accepts exactly finite numbers in [-90, 90]. The error is a TypeError exactly when the value is not a number at all; an out-of-range number is a plain Error. |
| CircularRegions.CheckLongitude | www/model/CircularRegion.js:86-97 | Accepts exactly finite numbers in [-180, 180], with the same error-kind split. |
| CircularRegions.CheckRadius | www/model/CircularRegion.js:74-84 | Accepts exactly non-negative numbers, +Infinity included. A non-number is a TypeError; a negative radius is a plain Error. |
| CircularRegions.NewCircular | www/model/CircularRegion.js:43-60 | Succeeds exactly when identifier, latitude, longitude and radius are all valid, and stores them with typeName "CircularRegion". The first failing check, in that order, decides the error. |
| UuidPattern.MatchesIffPositions | www/model/BeaconRegion.js:71-73 | An anchored pattern of fixed-width atoms matches a string exactly when the string has the pattern's length and each character is accepted at its position. |
| UuidPattern.UuidRegexPositions | www/model/BeaconRegion.js:71-73 | The UUID pattern has 36 positions: dashes at 8, 13, 18 and 23, and case-insensitive hex digits elsewhere. |
| UuidPattern.MatchesUuidRegexIffShape | www/model/BeaconRegion.js:66-73 | The UUID regular expression matches a string exactly when the string has the canonical 8-4-4-4-12 shape. |
| BeaconRegions.CheckUuid | www/model/BeaconRegion.js:75-79 | Accepts exactly strings of the canonical UUID shape, in either case. Every refusal is a TypeError. |
| BeaconRegions.CheckMajorOrMinor | www/model/BeaconRegion.js:81-95 | Accepts exactly `undefined`, or a value whose `_.isFinite` reading lies in [0, 65535]. Every refusal is a TypeError. `null` is refused. |
| BeaconRegions.NewBeacon | www/model/BeaconRegion.js:38-53 | Succeeds exactly when all four checks pass, and stores the arguments unchanged with typeName "BeaconRegion". The first failing check, in the order identifier, uuid, major, minor, decides the error. |
| BeaconRegions.EstimoteScenario | www/model/BeaconRegion.js:38-53 | The default Estimote UUID with major 35387 and minor 61546 builds a region. |
| Decimal.DecimalValueOfNat | www/model/BeaconRegion.js:83 | The decimal text of a natural number is read back as that number by the `_.isFinite` string coercion. |
| Decimal.NatToDecimalInjective | www/model/BeaconRegion.js:83 | Distinct numbers have distinct decimal texts. |
| RegionCodec.FromJson | www/Regions.js:42-70 | Reading typeName of null or undefined throws. A missing or empty typeName is a TypeError. "CircularRegion" and "BeaconRegion" give whatever the constructors give; notify is not passed to the beacon constructor. Any other tag gives null. Everything produced is a valid region. |
| RegionCodec.FieldsOf | www/Regions.js:42-70 | The own properties of a region, as a plain object, read exactly like the region instance does. |
| RegionCodec.FromJsonReadsProperties | www/Regions.js:42-70 | Any object that reads like a valid region decodes to that region. A beacon region loses notifyEntryStateOnDisplay. A base Region, which has no typeName, is refused. |
| RegionCodec.RoundTripFields | www/Regions.js:42-70 | Decoding the fields of a valid region gives back the region, with a beacon's notify flag dropped. |
| RegionCodec.RoundTripInstance | www/Regions.js:42-70 | Decoding a region instance rebuilds it in the same way. |
| RegionCodec.DecodeDecoded | www/Regions.js:42-70 | Decoding is idempotent on its own outputs. |
| RegionCodec.FromJsonEach | www/Regions.js:77-81 | Decoding element-wise succeeds exactly when every element decodes. The result lines up with the input. A failure is the error of the first failing element. |
| RegionCodec.FromJsonArray | www/Regions.js:72-82 | A non-array is a TypeError. An array is decoded element-wise. |
| RegionCodec.FromJsonArrayValue | www/Regions.js:72-82 | The resolved value is an array as long as the input, with null where a tag was unknown. |
| RegionCodec.SubclassesOfRegion | www/Regions.js:98-108 | Circular and beacon regions are regions, and no value is both. |
| RegionCodec.CheckRegionType | www/Regions.js:91-96 | Returns exactly for region instances. Anything else is the TypeError NotARegion. |
| RegionCodec.FieldsAreNotARegion | www/Regions.js:91-96 | A plain object with a region's fields is refused; the instance is accepted. |
| Bridge.RequestsAppend | www/LocationManager.js:188-206 | The requests of a concatenated trace are the concatenation of the requests. |
| Delegates.PreProcess | www/Delegate.js:47-81 | The seven region pre-processors replace `region` by its decoding: an instance, or null. They leave every other property alone. A nullish payload throws. A decoding error propagates. The last two events are identities. |
| Delegates.PreProcessTwice | www/Delegate.js:47-73 | A second pre-processing changes nothing, unless the region was decoded to null. Then it throws reading typeName. |
| Delegates.NewDelegate | www/Delegate.js:99-134 | A fresh delegate has a function under exactly the nine event names, each one the default handler. |
| Delegates.SafeTraceLogging | www/Delegate.js:83-92 | A non-string does nothing. A string produces exactly one effect: the log request, or a console error if the logger throws. No exception escapes. |
| Delegates.HandlerEffects | www/Delegate.js:99-134 | A default handler logs "DEFAULT name()". An application handler is opaque. |
| Manager.NewManager | www/LocationManager.js:41-100 | A fresh manager is unacknowledged. It has the default delegate. It has issued exactly the log request and the registration of the delegate channel. |
| Manager.SetDelegate | www/LocationManager.js:63-77 | A non-Delegate leaves a complaint and no request, and returns undefined. A Delegate is stored, onDomDelegateReady is requested, and the Delegate is returned. |
| Manager.FunctionsOf | www/LocationManager.js:191-194 | A function is in the result exactly when it is among the items. A one-element list keeps its function, or nothing for a non-function. |
| Manager.FunctionsOfAppend | www/LocationManager.js:191-194 | The filter distributes over concatenation. With the one-element cases, the result is exactly the functions of the list, in order. |
| Manager.PromisedExec | www/LocationManager.js:188-206 | Non-array arguments become []. Non-array pre-processors become []. An array of pre-processors becomes exactly its functions, in order (FunctionsOf). The request goes to the LocationManager service with a promise route. |
| Manager.PreProcessorExecutor | www/LocationManager.js:165-170 | No pre-processor passes the payload through. One pre-processor is that call. |
| Manager.PreProcessorExecutorAppend | www/LocationManager.js:165-170 | The executor is a left fold that stops at the first exception: running a + b is running a, then b on its result. |
| Manager.Settle | www/LocationManager.js:196-205 | An error reply rejects as is. A success reply resolves with the value the pre-processors return, applied in order; with none, that is the reply itself. The promise stays pending exactly when a pre-processor throws. |
| Manager.RouteEffects | www/LocationManager.js:136-146 | Logs the event type. Then it invokes the delegate's function under that name with the raw payload, followed by exactly that handler's own effects (a default handler's one `DEFAULT` log request), or complains that the event is unhandled. It never produces a late-callback complaint. |
| Manager.MapDelegateCallback | www/LocationManager.js:136-146 | Routing changes only the trace, by appending the routing effects. |
| Manager.OnDelegateCallback | www/LocationManager.js:114-125 | Every callback is first logged. A tagged payload is routed. The first untagged one acknowledges the registration. A later untagged one is a complaint. |
| Manager.CountLateAppend | www/LocationManager.js:122-124 | The late-callback complaints of a concatenation add up. |
| Manager.CountLateNone | www/LocationManager.js:122-124 | A trace without the complaint counts zero. |
| Manager.Handshake | www/LocationManager.js:114-125 | After any sequence of callbacks, the registration is acknowledged exactly when it already was or some callback was untagged. Each untagged callback except the acknowledging one leaves one complaint. The delegate is unchanged. |
| Manager.FreshHandshake | www/LocationManager.js:41-125 | From a fresh manager, n > 0 untagged callbacks leave n - 1 complaints and an acknowledged registration. |
| Manager.PlainRequest | www/LocationManager.js:228-230 | Each argument-less operation appends exactly its request with [] arguments, and changes nothing else. |
| Manager.AppendToDeviceLog | www/LocationManager.js:546-548 | The message is sent as given, and only the request is appended. |
| Manager.RegionRequest | www/LocationManager.js:278-330 | The region operations succeed exactly for region instances, sending the region. Anything else is a TypeError before any request. |
| Manager.RangingRequest | www/LocationManager.js:334-365 | Ranging succeeds exactly for beacon regions. A circular region is refused like any non-region. |
| Manager.StartAdvertising | www/LocationManager.js:454-460 | measuredPower is sent exactly when it is truthy. A non-region is refused before any request. |
| Manager.GetRegions | www/LocationManager.js:399-412 | The request carries `Regions.fromJsonArray` as its only pre-processor. |
| Manager.GetRegionsSettles | www/LocationManager.js:399-412 | The promise resolves with the decoded list. It stays pending if decoding throws. It is rejected with an error reply. |
| Manager.GuardsIssueNothing | www/Regions.js:91-96 | No region-guarded operation accepts a non-region. |
| LegacyIBeacon.IsBlank | www/ibeacon.js:182-184 | A string is blank exactly when it is whitespace only. A number is blank exactly when it is falsy. null and undefined are blank. An array is blank by the text it joins to. |
| LegacyIBeacon.ValidateFields | www/ibeacon.js:216-238 | The fields pass exactly when uuid and identifier are not blank, and major and minor are integral numbers that parseInt gives back. The order is uuid, major, minor, identifier. Every refusal is a TypeError. |
| LegacyIBeacon.NewCLBeaconRegion | www/ibeacon.js:199-214 | Built exactly when the fields validate. notifyEntryStateOnDisplay is always true. |
| LegacyIBeacon.NotifyFlagIgnored | www/ibeacon.js:204-210 | The flag passed to the constructor has no effect on the result. |
| LegacyIBeacon.NewCLBeaconRegionIntended | www/ibeacon.js:204-210 | The corrected constructor keeps a boolean flag, uses true otherwise, and accepts the same arguments. |
| LegacyIBeacon.NotifyFalseLost | www/ibeacon.js:206-210 | With false, the constructor as written stores true; the corrected one stores false. |
| LegacyIBeacon.ValidateRegion | www/ibeacon.js:36-41 | Passes exactly for CLBeaconRegion instances whose fields validate. Every refusal is a TypeError. |
| LegacyIBeacon.NotEveryIndexHoldsABeacon | www/ibeacon.js:48-53 | Every value has an index below which the loop must stop: arrays and strings end, and objects have finitely many properties. |
| LegacyIBeacon.IsArrayOfBeacons | www/ibeacon.js:43-55 | The loop answers exactly the ArrayOfBeacons predicate: truthy, a numeric length, and a CLBeaconRegion at every index below it. An infinite length also ends. |
| LegacyIBeacon.ArrayOfBeaconsHasFiniteLength | www/ibeacon.js:43-55 | An accepted array never has length +Infinity. |
| LegacyIBeacon.CallObjCRuntime | www/ibeacon.js:72-97 | The region is validated first (TypeError), then the action is checked against the four valid ones (plain Error). Only then is the one IBeacon request sent. |
| LegacyIBeacon.LegacyOperationName | www/ibeacon.js:75 | Every wrapper's action is on the whitelist. |
| LegacyIBeacon.SingleCall | www/ibeacon.js:99-160 | A single-region wrapper sends exactly one request for a valid region. Only the region can be refused. |
| LegacyIBeacon.BatchCall | www/ibeacon.js:57-179 | A value that is not an array of beacons sends nothing. Otherwise requests go out in index order. A complete run covers exactly the indices below length. A stop is the error of the first invalid element, after the requests for the elements before it. |
| LegacyIBeacon.SendEach | www/ibeacon.js:57-179 | Once the array check has passed, one request is sent per index below length, in order, each for an element that passed validateRegion. The walk stops at the first element that fails, with that element's exception. |
| AndroidLocationManager.FindAction | src/android/LocationManager.java:158-215 | The first action in the table with the given name. None exactly when no entry has that name. |
| AndroidLocationManager.ParseAction | src/android/LocationManager.java:158-215 | A found action has the given name. None means no action has it. |
| AndroidLocationManager.ActionNameInjective | src/android/LocationManager.java:158-215 | Distinct actions have distinct names, so the action string picks at most one branch. |
| AndroidLocationManager.ParseActionName | src/android/LocationManager.java:158-215 | Every action's name dispatches to that action. |
| AndroidLocationManager.Execute | src/android/LocationManager.java:158-215 | execute returns true exactly for the 26 action names. |
| AndroidLocationManager.ParseBeaconRegion | src/android/LocationManager.java:1190-1206 | A minor without a major is refused. Otherwise, for identifier texts `Identifier.parse` accepts, the identifier is kept, and uuid, major and minor are present exactly when non-null. |
| AndroidLocationManager.ParseCircularRegion | src/android/LocationManager.java:1171-1188 | The first missing key of latitude, longitude, radius is reported. Otherwise circular regions are unsupported; it never succeeds. |
| AndroidLocationManager.ParseRegion | src/android/LocationManager.java:1150-1168 | A non-object is a null pointer. typeName and then identifier are required. "BeaconRegion" goes to parseBeaconRegion and "CircularRegion" to parseCircularRegion, so only a beacon region can succeed. An unknown type is unsupported. |
| AndroidLocationManager.IsMonitoringAvailable | src/android/LocationManager.java:1063-1083 | The answer is OK, with true exactly when the region parses. |
| AndroidLocationManager.CircularNeverAvailable | src/android/LocationManager.java:1150-1168 | Nothing whose type is not "BeaconRegion" is available. |
| AndroidLocationManager.PutOptional | src/android/LocationManager.java:1237 | Putting a value stores it. Putting null removes the key. Other keys are unchanged. |
| AndroidLocationManager.MapOfBeaconRegion | src/android/LocationManager.java:1222-1251 | typeName is always "BeaconRegion". identifier, uuid, major and minor are present exactly when non-null, holding their texts. There are no other keys and no nulls. |
| AndroidLocationManager.ParseMapOfBeaconRegion | src/android/LocationManager.java:1150-1251 | Android parses back what it serialises, except a region without an id or with a minor but no major. |
| AndroidLocationManager.NameOfRegionState | src/android/LocationManager.java:1209-1220 | Inside and outside get their names. Every other state gets the error name. Each direction is an iff. |
| AndroidLocationManager.MonitorPayload | src/android/LocationManager.java:471-496 | The payload holds the event type and the serialised region. It holds the state name exactly for didDetermineStateForRegion. |
| AndroidLocationManager.FailPayload | src/android/LocationManager.java:610-625 | The fail payload holds its event type and the serialised region. It has an `error` key holding the message exactly when the exception message is not null. |
| AndroidLocationManager.NameOfProximity | src/android/LocationManager.java:1296-1312 | The four names partition the doubles: negative, then [0, 0.5), then [0.5, 4], then above 4. NaN is Far. |
| AndroidLocationManager.BluetoothStateChange | src/android/LocationManager.java:373-387 | ERROR gives NotDetermined. ON gives Authorized. OFF or TURNING_OFF give Denied only when coming from ON. Every other state reports nothing. |
| AndroidLocationManager.OptStringFirst | src/android/LocationManager.java:170 | Never null. A string is itself, and a missing argument gives "". A value that arrives as JSON null (null, undefined, NaN, the infinities, a function) gives "null". A boolean gives "true" or "false". A whole number of magnitude at most 2^53 gives its exact decimal digits. Anything else, including a larger whole number, gives its JSON text, which is never empty. |
| AndroidLocationManager.AppendToDeviceLogResult | src/android/LocationManager.java:770-784 | OK, echoing the message, exactly for a non-empty message. Otherwise ERROR with "Log message not provided". The source's null test cannot fire, since optString never yields null. |
| Interop.PlainAction | www/LocationManager.js:228-548 | Each argument-less facade request has an Android action of the same name. |
| Interop.RegionAction | www/LocationManager.js:278-330 | Each region request has an Android action of the same name. |
| Interop.RangingAction | www/LocationManager.js:334-365 | Each ranging request has an Android action of the same name. |
| Interop.EveryFacadeRequestIsHandled | src/android/LocationManager.java:158-215 | Android's execute accepts the action of the very request each facade operation appends: the argument-less operations, the region and ranging operations, startAdvertising, getMonitoredRegions and getRangedRegions, appendToDeviceLog and every log request, the registration and onDomDelegateReady. |
| Interop.NativeRegionDecodes | www/Regions.js:59-64 | What mapOfBeaconRegion writes decodes in JavaScript exactly when the id is non-empty, the uuid has the canonical shape, and major and minor are absent or in range. It decodes to a beacon region with the same texts. |
| Interop.DecimalIdentifier | www/model/BeaconRegion.js:81-92 | The decimal text of n is an acceptable major or minor exactly when n <= 65535, and it reads back as n. |
| Interop.NumericBeaconDecodes | www/Regions.js:59-64 | A beacon Android reports with numeric identifiers decodes, and its major and minor convert back to the numbers. |
| Interop.JsonFields | www/LocationManager.js:203 | JSON transport of an object drops exactly the properties holding undefined or a function. It writes NaN and the infinities as null and keeps every other value. |
| Interop.AndroidAvailability | src/android/LocationManager.java:1150-1206 | For a region sent over JSON, and for identifier texts `Identifier.parse` accepts, Android answers available exactly when it is a beacon region that does not have a minor without a major. Present means arriving as neither null nor dropped. A circular region never is. |
| Interop.MinorWithoutMajorRefused | src/android/LocationManager.java:1199-1200 | A beacon region that the JavaScript constructor accepts, with a minor but no major, is not available on Android. |
| Interop.MonitorEventPreProcesses | www/Delegate.js:47-73 | A monitoring event Android raises for a decodable region pre-processes into a payload carrying the region instance. |
| Interop.RangingFailureUnhandled | src/android/LocationManager.java:543-547 | Android's rangingBeaconsDidFailForRegion event reaches the facade as an unhandled event, unless the application added a function of that name. |
| Interop.DeviceLogRoundTrip | www/LocationManager.js:546-548 | Any message is echoed back with OK exactly when it is not the empty string. A string comes back as itself. A missing message, NaN or a function is logged as "null". |

## Left out

- Asynchrony. Q promises, Cordova `exec` callbacks and Android's thread pool are not modelled as concurrency. A request is an entry in the trace, and `Settle` says what a reply does.
- Console text and the `JSON.stringify` text of log lines. The trace records which complaint or dump happened, not its wording.
- What application handlers and pre-processors do. They are opaque identities; a user pre-processor's result is a parameter, and it never throws.
- Lookups of inherited `Object.prototype` members on a delegate, such as `toString` and `constructor`. Only own properties and the nine defaults are modelled.
- `_.isFinite` on strings in exponent or hexadecimal notation. Such strings count as not finite.
- BeaconRegions.CheckMajorOrMinor: a decimal string is read exactly, not rounded to the nearest double as `Number` rounds it. So "65535.0000000000001" is refused here, although JavaScript reads it as 65535 and accepts it. A decimal string too long to be finite in JavaScript is reported out of range here, not as not finite. Every other string is judged as JavaScript judges it.
- `BeaconRegion.isValidUuid` on a non-string. It is a TypeError reason of its own; a value with its own `match` method is not modelled.
- Interop.JsonFields: it transforms only the top-level property values. A NaN, infinity or function nested inside an array or object value is passed through unchanged.
- Regions.fromJson's `console.error` for an unknown type name. It is not recorded in any trace, because decoding is a pure function; the `None` result stands for that case.
- The delegate as a shared mutable object. In JavaScript `getDelegate()` returns the stored object itself, and handlers an application adds to it after `setDelegate` are found by routing. The model stores the delegate by value: `Manager.SetDelegate` fixes the handlers, and later changes to the object are not seen.
- Default handlers used as pre-processors return undefined. Their logging side effect is not traced.
- The legacy API's reply callbacks (`onSuccess`, `onFailure`). They forward to application code or the console.
- Android permissions, the Bluetooth adapter, the event queue, the timeout, and the AltBeacon `BeaconManager`. The plugin methods that only call these are covered by `Execute` dispatch alone.
- AltBeacon `Identifier.parse`, its `Region` class and `Math.round`. A parsed region keeps the raw JSON values, and a region to serialise is given by the texts of its identifiers.
- AndroidLocationManager.ParseBeaconRegion: success is stated without `Identifier.parse` (src/android/LocationManager.java:1202-1204). That call accepts only hexadecimal, UUID and decimal-integer texts, and throws on others such as "1.5", "  7" or "[7]". So the model accepts some regions that Android refuses.
- Interop.AndroidAvailability: its "exactly when" holds only for uuid, major and minor texts that `Identifier.parse` accepts. A major the JavaScript constructor accepts, such as 1.5, " 7" or [7], reaches Android as a text that `Identifier.parse` refuses. Android then answers false, while the model answers true.
- `mapOfBeacon`, the ranged-beacon payload. Only its `nameOfProximity` helper is modelled.
- `IBeaconPlugin.java`, `BeaconUtils.java`, `IBeacon.java` and the iOS plugin are not part of this model.
- The serialised `uuid` key is absent when the region has no uuid. Android's org.json removes a key when null is put. The method's shape suggests the key is always written; the model follows the code and the library.
- AndroidLocationManager.OptStringFirst: the text org.json writes for an array, an object, a fractional number or a whole number beyond 2^53 is a parameter known only to be non-empty. Beyond 2^53, JavaScript's shortest round-trip digits are not the exact value's digits. Its key order and its number formatting are not spelled out.

## Findings

| source | as written | input that shows it | evidently intended | confidence | as-written member | corrected member |
|---|---|---|---|---|---|---|
| www/ibeacon.js:206 | `typeof(notifyEntryStateOnDisplay) === 'Boolean'` is never true, since `typeof` yields 'boolean', so the flag is always true | `new CLBeaconRegion("u", 1, 2, "id", false)` stores `notifyEntryStateOnDisplay = true` | a boolean flag is kept, and anything else becomes true | high, not executed | LegacyIBeacon.NewCLBeaconRegion (NotifyFalseLost, NotifyFlagIgnored) | LegacyIBeacon.NewCLBeaconRegionIntended |

=== FILE: android.dfy ===
/** The pure helpers of the Android `LocationManager` plugin class: the
    action dispatch table, the parsing of a region from the JSON the
    JavaScript side sends, the JSON it sends back for a region, and the
    names it gives to region states, proximities and Bluetooth changes.

    JSON values are the `JsValue`s of the JavaScript side, `JNull` standing
    for `JSONObject.NULL`. AltBeacon's `Identifier.parse` and `Region` are
    not modelled: a parsed region keeps the raw JSON values whose text
    `Identifier.parse` would receive, and a region to serialise is given by
    the texts of its identifiers. */
module AndroidLocationManager {
  import opened Wrappers
  import opened JsValues
  import opened Decimal

  // ---- execute ----

  datatype Action =
    | OnDomDelegateReady | DisableDebugNotifications | EnableDebugNotifications | DisableDebugLogs
    | EnableDebugLogs | AppendToDeviceLog | StartMonitoringForRegion | StopMonitoringForRegion
    | StartRangingBeaconsInRegion | StopRangingBeaconsInRegion | IsRangingAvailable
    | GetAuthorizationStatus | RequestWhenInUseAuthorization | RequestAlwaysAuthorization
    | GetMonitoredRegions | GetRangedRegions | RequestStateForRegion | RegisterDelegateCallbackId
    | IsMonitoringAvailableForClass | IsAdvertisingAvailable | IsAdvertising | StartAdvertising
    | StopAdvertising | IsBluetoothEnabled | EnableBluetooth | DisableBluetooth

  function ActionName(a: Action): string {
    match a
    case OnDomDelegateReady => "onDomDelegateReady"
    case DisableDebugNotifications => "disableDebugNotifications"
    case EnableDebugNotifications => "enableDebugNotifications"
    case DisableDebugLogs => "disableDebugLogs"
    case EnableDebugLogs => "enableDebugLogs"
    case AppendToDeviceLog => "appendToDeviceLog"
    case StartMonitoringForRegion => "startMonitoringForRegion"
    case StopMonitoringForRegion => "stopMonitoringForRegion"
    case StartRangingBeaconsInRegion => "startRangingBeaconsInRegion"
    case StopRangingBeaconsInRegion => "stopRangingBeaconsInRegion"
    case IsRangingAvailable => "isRangingAvailable"
    case GetAuthorizationStatus => "getAuthorizationStatus"
    case RequestWhenInUseAuthorization => "requestWhenInUseAuthorization"
    case RequestAlwaysAuthorization => "requestAlwaysAuthorization"
    case GetMonitoredRegions => "getMonitoredRegions"
    case GetRangedRegions => "getRangedRegions"
    case RequestStateForRegion => "requestStateForRegion"
    case RegisterDelegateCallbackId => "registerDelegateCallbackId"
    case IsMonitoringAvailableForClass => "isMonitoringAvailableForClass"
    case IsAdvertisingAvailable => "isAdvertisingAvailable"
    case IsAdvertising => "isAdvertising"
    case StartAdvertising => "startAdvertising"
    case StopAdvertising => "stopAdvertising"
    case IsBluetoothEnabled => "isBluetoothEnabled"
    case EnableBluetooth => "enableBluetooth"
    case DisableBluetooth => "disableBluetooth"
  }

  /** The actions in the order `execute` tests them. */
  const ActionTable: seq<Action> := [
    OnDomDelegateReady, DisableDebugNotifications, EnableDebugNotifications, DisableDebugLogs,
    EnableDebugLogs, AppendToDeviceLog, StartMonitoringForRegion, StopMonitoringForRegion,
    StartRangingBeaconsInRegion, StopRangingBeaconsInRegion, IsRangingAvailable,
    GetAuthorizationStatus, RequestWhenInUseAuthorization, RequestAlwaysAuthorization,
    GetMonitoredRegions, GetRangedRegions, RequestStateForRegion, RegisterDelegateCallbackId,
    IsMonitoringAvailableForClass, IsAdvertisingAvailable, IsAdvertising, StartAdvertising,
    StopAdvertising, IsBluetoothEnabled, EnableBluetooth, DisableBluetooth]

  lemma EveryActionInTable(a: Action)
    ensures a in ActionTable
  { }

  /** The first action of `table` whose name is `name`: the chain of
      `action.equals(...)` tests. */
  function FindAction(name: string, table: seq<Action>): (a: Option<Action>)
    ensures a.Some? ==> a.value in table && ActionName(a.value) == name
    ensures a.None? <==> forall i :: 0 <= i < |table| ==> ActionName(table[i]) != name
  {
    if table == [] then None
    else if ActionName(table[0]) == name then Some(table[0])
    else
      var rest := FindAction(name, table[1..]);
      assert forall i :: 1 <= i < |table| ==> table[i] == table[1..][i - 1];
      rest
  }

  function ParseAction(name: string): (a: Option<Action>)
    ensures a.Some? ==> ActionName(a.value) == name
    ensures a.None? ==> forall b: Action :: ActionName(b) != name
  {
    var a := FindAction(name, ActionTable);
    if a.None? then
      assert forall b: Action :: ActionName(b) != name by {
        forall b: Action ensures ActionName(b) != name {
          EveryActionInTable(b);
        }
      }
      a
    else a
  }

  /** The length and the last, second-to-last and fourth-to-last
      characters already tell the 26 names apart. */
  function NameKey(name: string): (nat, char, char, char) {
    if |name| < 4 then (|name|, ' ', ' ', ' ')
    else (|name|, name[|name| - 1], name[|name| - 2], name[|name| - 4])
  }

  /** The action whose name has the given key. */
  function ActionOfKey(key: (nat, char, char, char)): Option<Action> {
    if key == (18, 'y', 'd', 'e') then Some(OnDomDelegateReady)
    else if key == (25, 's', 'n', 'i') then Some(DisableDebugNotifications)
    else if key == (24, 's', 'n', 'i') then Some(EnableDebugNotifications)
    else if key == (16, 's', 'g', 'L') then Some(DisableDebugLogs)
    else if key == (15, 's', 'g', 'L') then Some(EnableDebugLogs)
    else if key == (17, 'g', 'o', 'e') then Some(AppendToDeviceLog)
    else if key == (24, 'n', 'o', 'g') then Some(StartMonitoringForRegion)
    else if key == (23, 'n', 'o', 'g') then Some(StopMonitoringForRegion)
    else if key == (27, 'n', 'o', 'g') then Some(StartRangingBeaconsInRegion)
    else if key == (26, 'n', 'o', 'g') then Some(StopRangingBeaconsInRegion)
    else if key == (18, 'e', 'l', 'a') then Some(IsRangingAvailable)
    else if key == (22, 's', 'u', 'a') then Some(GetAuthorizationStatus)
    else if key == (29, 'n', 'o', 't') then Some(RequestWhenInUseAuthorization)
    else if key == (26, 'n', 'o', 't') then Some(RequestAlwaysAuthorization)
    else if key == (19, 's', 'n', 'i') then Some(GetMonitoredRegions)
    else if key == (16, 's', 'n', 'i') then Some(GetRangedRegions)
    else if key == (21, 'n', 'o', 'g') then Some(RequestStateForRegion)
    else if key == (26, 'd', 'I', 'c') then Some(RegisterDelegateCallbackId)
    else if key == (29, 's', 's', 'l') then Some(IsMonitoringAvailableForClass)
    else if key == (22, 'e', 'l', 'a') then Some(IsAdvertisingAvailable)
    else if key == (13, 'g', 'n', 's') then Some(IsAdvertising)
    else if key == (16, 'g', 'n', 's') then Some(StartAdvertising)
    else if key == (15, 'g', 'n', 's') then Some(StopAdvertising)
    else if key == (18, 'd', 'e', 'b') then Some(IsBluetoothEnabled)
    else if key == (15, 'h', 't', 'o') then Some(EnableBluetooth)
    else if key == (16, 'h', 't', 'o') then Some(DisableBluetooth)
    else None
  }

  /** The key of each action's name, written out. */
  function ActionKey(a: Action): (nat, char, char, char) {
    match a
    case OnDomDelegateReady => (18, 'y', 'd', 'e')
    case DisableDebugNotifications => (25, 's', 'n', 'i')
    case EnableDebugNotifications => (24, 's', 'n', 'i')
    case DisableDebugLogs => (16, 's', 'g', 'L')
    case EnableDebugLogs => (15, 's', 'g', 'L')
    case AppendToDeviceLog => (17, 'g', 'o', 'e')
    case StartMonitoringForRegion => (24, 'n', 'o', 'g')
    case StopMonitoringForRegion => (23, 'n', 'o', 'g')
    case StartRangingBeaconsInRegion => (27, 'n', 'o', 'g')
    case StopRangingBeaconsInRegion => (26, 'n', 'o', 'g')
    case IsRangingAvailable => (18, 'e', 'l', 'a')
    case GetAuthorizationStatus => (22, 's', 'u', 'a')
    case RequestWhenInUseAuthorization => (29, 'n', 'o', 't')
    case RequestAlwaysAuthorization => (26, 'n', 'o', 't')
    case GetMonitoredRegions => (19, 's', 'n', 'i')
    case GetRangedRegions => (16, 's', 'n', 'i')
    case RequestStateForRegion => (21, 'n', 'o', 'g')
    case RegisterDelegateCallbackId => (26, 'd', 'I', 'c')
    case IsMonitoringAvailableForClass => (29, 's', 's', 'l')
    case IsAdvertisingAvailable => (22, 'e', 'l', 'a')
    case IsAdvertising => (13, 'g', 'n', 's')
    case StartAdvertising => (16, 'g', 'n', 's')
    case StopAdvertising => (15, 'g', 'n', 's')
    case IsBluetoothEnabled => (18, 'd', 'e', 'b')
    case EnableBluetooth => (15, 'h', 't', 'o')
    case DisableBluetooth => (16, 'h', 't', 'o')
  }

  lemma ActionKeyOfName1(a: Action)
    requires a in {OnDomDelegateReady, DisableDebugNotifications, EnableDebugNotifications, DisableDebugLogs, EnableDebugLogs, AppendToDeviceLog, StartMonitoringForRegion}
    ensures NameKey(ActionName(a)) == ActionKey(a)
  { }

  lemma ActionKeyOfName2(a: Action)
    requires a in {StopMonitoringForRegion, StartRangingBeaconsInRegion, StopRangingBeaconsInRegion, IsRangingAvailable, GetAuthorizationStatus, RequestWhenInUseAuthorization}
    ensures NameKey(ActionName(a)) == ActionKey(a)
  { }

  lemma ActionKeyOfName3(a: Action)
    requires a in {RequestAlwaysAuthorization, GetMonitoredRegions, GetRangedRegions, RequestStateForRegion, RegisterDelegateCallbackId, IsMonitoringAvailableForClass, IsAdvertisingAvailable}
    ensures NameKey(ActionName(a)) == ActionKey(a)
  { }

  lemma ActionKeyOfName4(a: Action)
    requires a in {IsAdvertising, StartAdvertising, StopAdvertising, IsBluetoothEnabled, EnableBluetooth, DisableBluetooth}
    ensures NameKey(ActionName(a)) == ActionKey(a)
  { }

  lemma ActionKeyOfName(a: Action)
    ensures NameKey(ActionName(a)) == ActionKey(a)
  {
    if a in {OnDomDelegateReady, DisableDebugNotifications, EnableDebugNotifications, DisableDebugLogs, EnableDebugLogs, AppendToDeviceLog, StartMonitoringForRegion} {
      ActionKeyOfName1(a);
    } else if a in {StopMonitoringForRegion, StartRangingBeaconsInRegion, StopRangingBeaconsInRegion, IsRangingAvailable, GetAuthorizationStatus, RequestWhenInUseAuthorization} {
      ActionKeyOfName2(a);
    } else if a in {RequestAlwaysAuthorization, GetMonitoredRegions, GetRangedRegions, RequestStateForRegion, RegisterDelegateCallbackId, IsMonitoringAvailableForClass, IsAdvertisingAvailable} {
      ActionKeyOfName3(a);
    } else {
      ActionKeyOfName4(a);
    }
  }

  lemma ActionOfActionKey(a: Action)
    ensures ActionOfKey(ActionKey(a)) == Some(a)
  { }

  /** Distinct actions have distinct names. */
  lemma ActionNameInjective(a: Action, b: Action)
    requires ActionName(a) == ActionName(b)
    ensures a == b
  {
    ActionKeyOfName(a);
    ActionKeyOfName(b);
    ActionOfActionKey(a);
    ActionOfActionKey(b);
  }

  lemma ParseActionName(a: Action)
    ensures ParseAction(ActionName(a)) == Some(a)
  {
    var found := ParseAction(ActionName(a)).value;
    assert ActionName(found) == ActionName(a);
    ActionNameInjective(found, a);
  }

  /** `execute(action, args, callbackContext)` answers `true` exactly for the
      names in its table. */
  function Execute(action: string): (handled: bool)
    ensures handled <==> exists a: Action :: ActionName(a) == action
  {
    ParseAction(action).Some?
  }

  // ---- parsing regions ----

  datatype JavaException =
    | NullPointer                       // a method called on a null JSONObject
    | InvalidKey(key: string)           // InvalidKeyException: a required key is missing
    | UnsupportedOperation(reason: UnsupportedReason)

  datatype UnsupportedReason = UnknownRegionType | CircularRegionsUnsupported | MinorWithoutMajor

  /** `json.has(key)`. */
  predicate Has(json: map<string, JsValue>, key: string) { key in json }

  /** `json.has(key) && !json.isNull(key)`. */
  predicate HasNonNull(json: map<string, JsValue>, key: string) { key in json && !json[key].JNull? }

  /** Whether `json.getString(key)` equals `text`. `getString` converts a
      non-string value to its JSON text (a number's digits, "true", "null",
      a nested document), none of which is a region type name, so only a
      string value can match. */
  predicate StringEquals(v: JsValue, text: string) { v.JStr? && v.s == text }

  /** A beacon region as `parseBeaconRegion` hands it to AltBeacon: the
      identifier value and the uuid, major and minor values, `None` where
      the key is absent or null. */
  datatype ParsedRegion = ParsedRegion(identifier: JsValue, id1: Option<JsValue>, id2: Option<JsValue>,
                                       id3: Option<JsValue>)

  function OptionalValue(json: map<string, JsValue>, key: string): (v: Option<JsValue>)
    ensures v.Some? <==> HasNonNull(json, key)
    ensures v.Some? ==> v.value == json[key]
  {
    if HasNonNull(json, key) then Some(json[key]) else None
  }

  /** `parseBeaconRegion`: a minor without a major is refused; a major
      without a minor, and a region with neither, are accepted. The values
      are kept as they are: `Identifier.parse`, which refuses texts other
      than hexadecimal, UUID and decimal-integer ones, is not modelled. */
  function ParseBeaconRegion(json: map<string, JsValue>): (r: Result<ParsedRegion, JavaException>)
    requires Has(json, "identifier")
    ensures r.Success? <==> HasNonNull(json, "major") || !HasNonNull(json, "minor")
    ensures r.Failure? ==> r.error == UnsupportedOperation(MinorWithoutMajor)
    ensures r.Success? ==> r.value.identifier == json["identifier"]
                           && (r.value.id1.Some? <==> HasNonNull(json, "uuid"))
                           && (r.value.id2.Some? <==> HasNonNull(json, "major"))
                           && (r.value.id3.Some? <==> HasNonNull(json, "minor"))
  {
    var uuid := OptionalValue(json, "uuid");
    var major := OptionalValue(json, "major");
    var minor := OptionalValue(json, "minor");
    if major.None? && minor.Some? then Failure(UnsupportedOperation(MinorWithoutMajor))
    else Success(ParsedRegion(json["identifier"], uuid, major, minor))
  }

  /** `parseCircularRegion`: the three keys are required, in order, and then
      the region is refused anyway, since circular regions are unsupported. */
  function ParseCircularRegion(json: map<string, JsValue>): (r: Result<ParsedRegion, JavaException>)
    ensures r.Failure?
    ensures !Has(json, "latitude") ==> r.error == InvalidKey("latitude")
    ensures Has(json, "latitude") && !Has(json, "longitude") ==> r.error == InvalidKey("longitude")
    ensures Has(json, "latitude") && Has(json, "longitude") && !Has(json, "radius") ==>
              r.error == InvalidKey("radius")
    ensures Has(json, "latitude") && Has(json, "longitude") && Has(json, "radius") ==>
              r.error == UnsupportedOperation(CircularRegionsUnsupported)
  {
    if !Has(json, "latitude") then Failure(InvalidKey("latitude"))
    else if !Has(json, "longitude") then Failure(InvalidKey("longitude"))
    else if !Has(json, "radius") then Failure(InvalidKey("radius"))
    else Failure(UnsupportedOperation(CircularRegionsUnsupported))
  }

  /** `parseRegion(json)`, where `json` is `args.optJSONObject(0)` and so is
      `null` for anything but an object: `typeName`, then `identifier`, must
      be present; the type name picks the parser; any other name is refused.
      Only a beacon region can come out. */
  function ParseRegion(json: JsValue): (r: Result<ParsedRegion, JavaException>)
    ensures !json.JObj? ==> r == Failure(NullPointer)
    ensures json.JObj? && !Has(json.fields, "typeName") ==> r == Failure(InvalidKey("typeName"))
    ensures json.JObj? && Has(json.fields, "typeName") && !Has(json.fields, "identifier") ==>
              r == Failure(InvalidKey("identifier"))
    ensures r.Success? ==> json.JObj? && StringEquals(json.fields["typeName"], "BeaconRegion")
                           && r == ParseBeaconRegion(json.fields)
    ensures json.JObj? && Has(json.fields, "typeName") && Has(json.fields, "identifier")
            && !StringEquals(json.fields["typeName"], "BeaconRegion")
            && !StringEquals(json.fields["typeName"], "CircularRegion")
            ==> r == Failure(UnsupportedOperation(UnknownRegionType))
    ensures json.JObj? && Has(json.fields, "typeName") && Has(json.fields, "identifier")
            && StringEquals(json.fields["typeName"], "BeaconRegion")
            ==> r == ParseBeaconRegion(json.fields)
    ensures json.JObj? && Has(json.fields, "typeName") && Has(json.fields, "identifier")
            && StringEquals(json.fields["typeName"], "CircularRegion")
            ==> r == ParseCircularRegion(json.fields)
  {
    if !json.JObj? then Failure(NullPointer)
    else if !Has(json.fields, "typeName") then Failure(InvalidKey("typeName"))
    else if !Has(json.fields, "identifier") then Failure(InvalidKey("identifier"))
    else if StringEquals(json.fields["typeName"], "BeaconRegion") then ParseBeaconRegion(json.fields)
    else if StringEquals(json.fields["typeName"], "CircularRegion") then ParseCircularRegion(json.fields)
    else Failure(UnsupportedOperation(UnknownRegionType))
  }

  datatype Status = OK | ERROR

  datatype PluginResult = PluginResult(status: Status, message: JsValue)

  /** `isMonitoringAvailableForClass`: `true` exactly when `parseRegion`
      succeeds; every exception, the `null` argument included, answers
      `false`. */
  function IsMonitoringAvailable(argument: JsValue): (r: PluginResult)
    ensures r.status == OK
    ensures r.message == JBool(ParseRegion(argument).Success?)
  {
    var isValid := ParseRegion(argument).Success?;
    PluginResult(OK, JBool(isValid))
  }

  /** A circular region is never available for monitoring, whatever its
      fields; nor is anything whose type name is not "BeaconRegion". */
  lemma CircularNeverAvailable(json: JsValue)
    requires json.JObj? && Has(json.fields, "typeName")
    requires !StringEquals(json.fields["typeName"], "BeaconRegion")
    ensures IsMonitoringAvailable(json).message == JBool(false)
  { }

  // ---- serialising regions ----

  /** An AltBeacon region to serialise: its unique id and the texts of its
      three identifiers, each possibly null. */
  datatype NativeRegion = NativeRegion(uniqueId: Option<string>, id1: Option<string>, id2: Option<string>,
                                       id3: Option<string>)

  /** `dict.put(key, value)` on Android's org.json: putting `null` removes
      the key instead of storing it. */
  function PutOptional(dict: map<string, JsValue>, key: string, value: Option<string>): (d: map<string, JsValue>)
    ensures key in d <==> value.Some?
    ensures value.Some? ==> d[key] == JStr(value.value)
    ensures forall k :: k != key ==> (k in d <==> k in dict) && (k in d ==> d[k] == dict[k])
  {
    if value.Some? then dict[key := JStr(value.value)] else dict - {key}
  }

  /** `mapOfBeaconRegion` (which `mapOfRegion` always calls): `typeName` is
      always "BeaconRegion" and each other key is present exactly when its
      value is not null, `uuid` included, since a null put removes the key. */
  function MapOfBeaconRegion(region: NativeRegion): (json: map<string, JsValue>)
    ensures json.Keys <= {"identifier", "uuid", "major", "minor", "typeName"}
    ensures "typeName" in json && json["typeName"] == JStr("BeaconRegion")
    ensures "identifier" in json <==> region.uniqueId.Some?
    ensures "uuid" in json <==> region.id1.Some?
    ensures "major" in json <==> region.id2.Some?
    ensures "minor" in json <==> region.id3.Some?
    ensures region.uniqueId.Some? ==> json["identifier"] == JStr(region.uniqueId.value)
    ensures region.id1.Some? ==> json["uuid"] == JStr(region.id1.value)
    ensures region.id2.Some? ==> json["major"] == JStr(region.id2.value)
    ensures region.id3.Some? ==> json["minor"] == JStr(region.id3.value)
    ensures forall k :: k in json ==> !json[k].JNull?
  {
    var dict := PutOptional(map[], "identifier", region.uniqueId);
    var dict := PutOptional(dict, "uuid", region.id1);
    var dict := PutOptional(dict, "major", region.id2);
    var dict := PutOptional(dict, "minor", region.id3);
    dict["typeName" := JStr("BeaconRegion")]
  }

  function AsValue(text: Option<string>): Option<JsValue> {
    match text
    case None => None
    case Some(s) => Some(JStr(s))
  }

  /** What Android sends, Android parses back: a region with an id parses to
      its identifier texts, unless it has a minor without a major; one
      without an id is refused for the missing `identifier`. */
  lemma ParseMapOfBeaconRegion(region: NativeRegion)
    ensures region.uniqueId.None? ==> ParseRegion(JObj(MapOfBeaconRegion(region))) == Failure(InvalidKey("identifier"))
    ensures region.uniqueId.Some? && region.id2.None? && region.id3.Some? ==>
              ParseRegion(JObj(MapOfBeaconRegion(region))) == Failure(UnsupportedOperation(MinorWithoutMajor))
    ensures region.uniqueId.Some? && !(region.id2.None? && region.id3.Some?) ==>
              ParseRegion(JObj(MapOfBeaconRegion(region)))
              == Success(ParsedRegion(JStr(region.uniqueId.value), AsValue(region.id1), AsValue(region.id2),
                                      AsValue(region.id3)))
  {
    var json := MapOfBeaconRegion(region);
    if region.uniqueId.Some? && !(region.id2.None? && region.id3.Some?) {
      var parsed := ParseBeaconRegion(json);
      assert parsed.value.id1 == AsValue(region.id1);
      assert parsed.value.id2 == AsValue(region.id2);
      assert parsed.value.id3 == AsValue(region.id3);
    }
  }

  // ---- event payloads and names ----

  /** AltBeacon's `MonitorNotifier.INSIDE` and `OUTSIDE`. */
  const Inside: int := 1
  const Outside: int := 0

  /** `nameOfRegionState`. */
  function NameOfRegionState(state: int): (name: string)
    ensures state == Inside <==> name == "CLRegionStateInside"
    ensures state == Outside <==> name == "CLRegionStateOutside"
    ensures state != Inside && state != Outside <==> name == "ErrorUnknownCLRegionStateObjectReceived"
  {
    if state == Inside then "CLRegionStateInside"
    else if state == Outside then "CLRegionStateOutside"
    else "ErrorUnknownCLRegionStateObjectReceived"
  }

  /** The payload `dispatchMonitorState` sends: the event type and the
      region, plus the state's name for `didDetermineStateForRegion` only. */
  function MonitorPayload(eventType: string, state: int, region: NativeRegion): (json: map<string, JsValue>)
    ensures "eventType" in json && json["eventType"] == JStr(eventType)
    ensures "region" in json && json["region"] == JObj(MapOfBeaconRegion(region))
    ensures "state" in json <==> eventType == "didDetermineStateForRegion"
    ensures "state" in json ==> json["state"] == JStr(NameOfRegionState(state))
    ensures json.Keys <= {"eventType", "region", "state"}
  {
    var data := map["eventType" := JStr(eventType), "region" := JObj(MapOfBeaconRegion(region))];
    if eventType == "didDetermineStateForRegion" then data["state" := JStr(NameOfRegionState(state))]
    else data
  }

  /** The payload of a failure event (`sendFailEvent`), used for
      `rangingBeaconsDidFailForRegion` and `monitoringDidFailForRegionWithError`.
      The message is `exception.getMessage()`, which may be null; putting
      null removes the key, so the payload then has no `error`. */
  function FailPayload(eventType: string, region: NativeRegion, message: Option<string>): (json: map<string, JsValue>)
    ensures "eventType" in json && json["eventType"] == JStr(eventType)
    ensures "region" in json && json["region"] == JObj(MapOfBeaconRegion(region))
    ensures "error" in json <==> message.Some?
    ensures message.Some? ==> json["error"] == JStr(message.value)
    ensures json.Keys <= {"eventType", "region", "error"}
  {
    var data := map["eventType" := JStr(eventType), "region" := JObj(MapOfBeaconRegion(region))];
    PutOptional(data, "error", message)
  }

  /** A Java `double`. */
  datatype Double = Finite(x: real) | NaN | Infinity(positive: bool)

  /** `nameOfProximity(accuracy)`. Every comparison with NaN is false, so NaN
      falls through to the last case. */
  function NameOfProximity(accuracy: Double): (name: string)
    ensures name == "ProximityUnknown" <==> (accuracy.Finite? && accuracy.x < 0.0) || accuracy == Infinity(false)
    ensures name == "ProximityImmediate" <==> accuracy.Finite? && 0.0 <= accuracy.x < 0.5
    ensures name == "ProximityNear" <==> accuracy.Finite? && 0.5 <= accuracy.x <= 4.0
    ensures name == "ProximityFar" <==> (accuracy.Finite? && accuracy.x > 4.0) || accuracy == Infinity(true)
                                        || accuracy.NaN?
  {
    match accuracy
    case NaN => "ProximityFar"
    case Infinity(positive) => if positive then "ProximityFar" else "ProximityUnknown"
    case Finite(x) =>
      if x < 0.0 then "ProximityUnknown"
      else if x < 0.5 then "ProximityImmediate"
      else if x <= 4.0 then "ProximityNear"
      else "ProximityFar"
  }

  /** Android's `BluetoothAdapter` state constants. */
  const BluetoothError: int := -2147483648
  const StateOff: int := 10
  const StateTurningOn: int := 11
  const StateOn: int := 12
  const StateTurningOff: int := 13

  /** The broadcast receiver's switch on a Bluetooth state change: the
      authorization status it reports, if any. */
  function BluetoothStateChange(state: int, oldState: int): (status: Option<string>)
    ensures state == BluetoothError ==> status == Some("AuthorizationStatusNotDetermined")
    ensures state == StateOn ==> status == Some("AuthorizationStatusAuthorized")
    ensures (state == StateOff || state == StateTurningOff) ==>
              (status.Some? <==> oldState == StateOn)
              && (status.Some? ==> status.value == "AuthorizationStatusDenied")
    ensures state !in {BluetoothError, StateOff, StateTurningOff, StateOn} ==> status.None?
  {
    if state == BluetoothError then Some("AuthorizationStatusNotDetermined")
    else if state == StateOff || state == StateTurningOff then
      (if oldState == StateOn then Some("AuthorizationStatusDenied") else None)
    else if state == StateOn then Some("AuthorizationStatusAuthorized")
    else None
  }

  /** The event payload `didChangeAuthorizationStatus` sends. */
  function AuthorizationPayload(status: string): map<string, JsValue> {
    map["eventType" := JStr("didChangeAuthorizationStatus"), "authorizationStatus" := JStr(status)]
  }

  // ---- appendToDeviceLog ----

  /** Whether a JavaScript value reaches Android as JSON `null` when it is
      an element of the argument array: `JSON.stringify` writes `undefined`,
      functions, NaN and the infinities there as `null`. */
  predicate NullInArgs(v: JsValue) { v.JNull? || v.JUndef? || v.JFunc? || v.JNaN? || v.JInf? }

  /** A whole number of magnitude at most 2^53. `JSON.stringify` writes
      every such number with its exact digits, and org.json reads them back
      as an `Integer` or `Long`. Above 2^53 JavaScript writes the shortest
      digits that round-trip, padded with zeros, which are not the exact
      value's digits. */
  predicate ExactInteger(v: JsValue) {
    v.JNum? && v.n.Floor as real == v.n && -0x20_0000_0000_0000 <= v.n.Floor <= 0x20_0000_0000_0000
  }

  /** The decimal text of an integer, with a leading minus when negative. */
  function IntToDecimal(i: int): (s: string)
    ensures |s| > 0
    ensures i >= 0 ==> s == NatToDecimal(i)
    ensures i < 0 ==> s == "-" + NatToDecimal(-i)
  {
    if i < 0 then "-" + NatToDecimal(-i) else NatToDecimal(i)
  }

  /** `args.optString(0)`, for the argument array as JavaScript passed it.
      A missing argument gives the fallback "", a string is itself, a value
      that arrives as JSON null gives "null", a boolean gives "true" or "false",
      and a whole number of magnitude at most 2^53 gives its decimal digits.
      Any other value (an array, an object, a fractional number, or a whole
      number beyond 2^53) gives the JSON text org.json
      writes for it, which is the parameter `jsonText` and is never empty.
      The result is never `null`. */
  function OptStringFirst(args: seq<JsValue>, jsonText: string): (text: string)
    requires |jsonText| > 0
    ensures |text| == 0 <==> |args| == 0 || args[0] == JStr("")
    ensures |args| > 0 && args[0].JStr? ==> text == args[0].s
    ensures |args| > 0 && NullInArgs(args[0]) ==> text == "null"
    ensures |args| > 0 && args[0].JBool? ==> text == (if args[0].b then "true" else "false")
    ensures |args| > 0 && ExactInteger(args[0]) ==> text == IntToDecimal(args[0].n.Floor)
    ensures |args| > 0 && !(args[0].JStr? || NullInArgs(args[0]) || args[0].JBool? || ExactInteger(args[0])) ==>
              text == jsonText
  {
    if |args| == 0 then ""
    else
      var v := args[0];
      if v.JStr? then v.s
      else if NullInArgs(v) then "null"
      else if v.JBool? then (if v.b then "true" else "false")
      else if ExactInteger(v) then IntToDecimal(v.n.Floor)
      else jsonText
  }

  /** `appendToDeviceLog(message)`: an empty message is an error, anything
      else is echoed back with OK. The source also refuses a `null` message,
      but `optString` never yields one. */
  function AppendToDeviceLogResult(message: string): (r: PluginResult)
    ensures r.status == OK <==> |message| > 0
    ensures r.status == OK ==> r.message == JStr(message)
    ensures r.status == ERROR ==> r.message == JStr("Log message not provided")
  {
    if |message| > 0 then PluginResult(OK, JStr(message))
    else PluginResult(ERROR, JStr("Log message not provided"))
  }
}

=== FILE: beacon_region.dfy ===
/** `BeaconRegion`: a region given by a beacon's proximity UUID and an
    optional 16-bit major and minor value. */
module BeaconRegions {
  import opened Wrappers
  import opened JsValues
  import opened JsErrors
  import opened BaseRegion
  import opened UuidPattern

  /** `BeaconRegion.U_INT_16_MIN_VALUE` and `U_INT_16_MAX_VALUE`, the latter
      computed in the source as `(1 << 16) - 1`. */
  const Uint16Min: real := 0.0
  const Uint16Max: real := 65535.0

  /** `BeaconRegion.isValidUuid`: `uuid.match(regex) != null`. Calling
      `match` on a value that is not a string throws a `TypeError`. */
  function IsValidUuid(uuid: JsValue): Result<bool, Exception>
  {
    if uuid.JStr? then Success(Matches(uuid.s, UuidRegex)) else Failure(UuidNotMatchable(uuid))
  }

  /** `BeaconRegion.checkUuid`: every rejected UUID, string or not, is a
      `TypeError`; an accepted one is a string of UUID shape in either case. */
  function CheckUuid(uuid: JsValue): (r: Result<string, Exception>)
    ensures r.Success? <==> uuid.JStr? && UuidShape(uuid.s)
    ensures r.Success? ==> JStr(r.value) == uuid
    ensures r.Failure? ==> r.error.Kind() == TypeError
  {
    var valid :- IsValidUuid(uuid);
    MatchesUuidRegexIffShape(uuid.s);
    if !valid then Failure(UuidInvalid(uuid.s)) else Success(uuid.s)
  }

  /** A major or minor value the constructor stores: left out (`undefined`),
      or finite in the sense of `_.isFinite` and within [0, 65535]. There is
      no integrality check, so 1.5 is accepted. */
  predicate ValidMajorOrMinor(v: JsValue) {
    v.JUndef? || (FiniteNumber(v).Some? && Uint16Min <= FiniteNumber(v).value <= Uint16Max)
  }

  /** `BeaconRegion.checkMajorOrMinor`: only `undefined` skips the check
      (`null` does not); every rejection is a `TypeError`. */
  function CheckMajorOrMinor(v: JsValue): (r: Result<(), Exception>)
    ensures r.Success? <==> ValidMajorOrMinor(v)
    ensures r.Failure? ==> r.error.Kind() == TypeError
  {
    if IsUndefined(v) then Success(())
    else match FiniteNumber(v)
      case None => Failure(NotFinite(v))
      case Some(x) => if x > Uint16Max || x < Uint16Min then Failure(OutOfUint16Range(v)) else Success(())
  }

  /** `new BeaconRegion(identifier, uuid, major, minor, notifyEntryStateOnDisplay)`:
      the checks run identifier, uuid, major, minor and the first failure
      decides the exception; nothing pairs major with minor, so a minor
      without a major is accepted. On success the fields are stored as given
      (`notifyEntryStateOnDisplay` unchecked) and `typeName` is "BeaconRegion". */
  function NewBeacon(identifier: JsValue, uuid: JsValue, major: JsValue, minor: JsValue,
                     notifyEntryStateOnDisplay: JsValue): (r: Result<Region, Exception>)
    ensures r.Success? <==> IsValidIdentifier(identifier) && uuid.JStr? && UuidShape(uuid.s)
                            && ValidMajorOrMinor(major) && ValidMajorOrMinor(minor)
    ensures r.Success? ==>
              r.value.Beacon? && JStr(r.value.identifier) == identifier && JStr(r.value.uuid) == uuid
              && r.value.major == major && r.value.minor == minor
              && r.value.notifyEntryStateOnDisplay == notifyEntryStateOnDisplay
              && RegionTypeName(r.value) == JStr("BeaconRegion")
    ensures !IsValidIdentifier(identifier) ==> r == Failure(CheckIdentifier(identifier).error)
    ensures IsValidIdentifier(identifier) && CheckUuid(uuid).Failure? ==> r == Failure(CheckUuid(uuid).error)
    ensures (IsValidIdentifier(identifier) && CheckUuid(uuid).Success? && !ValidMajorOrMinor(major))
            ==> r == Failure(CheckMajorOrMinor(major).error)
    ensures (IsValidIdentifier(identifier) && CheckUuid(uuid).Success? && ValidMajorOrMinor(major)
             && !ValidMajorOrMinor(minor)) ==> r == Failure(CheckMajorOrMinor(minor).error)
  {
    var id :- CheckIdentifier(identifier);
    var u :- CheckUuid(uuid);
    var _ :- CheckMajorOrMinor(major);
    var _ :- CheckMajorOrMinor(minor);
    Success(Beacon(id, u, major, minor, notifyEntryStateOnDisplay))
  }

  /** The invariant every beacon region built by the constructor keeps. */
  predicate ValidBeacon(r: Region)
    requires r.Beacon?
  {
    |r.identifier| > 0 && UuidShape(r.uuid) && ValidMajorOrMinor(r.major) && ValidMajorOrMinor(r.minor)
  }

  /** The default Estimote UUID is in the canonical form. */
  lemma EstimoteUuidShape()
    ensures UuidShape("b9407f30-f5f8-466e-aff9-25556b57fe6d")
  {
    var u := "b9407f30-f5f8-466e-aff9-25556b57fe6d";
    forall i | 0 <= i < 9 ensures if IsDashPosition(i) then u[i] == '-' else IsHexIgnoringCase(u[i]) { }
    forall i | 9 <= i < 18 ensures if IsDashPosition(i) then u[i] == '-' else IsHexIgnoringCase(u[i]) { }
    forall i | 18 <= i < 27 ensures if IsDashPosition(i) then u[i] == '-' else IsHexIgnoringCase(u[i]) { }
    forall i | 27 <= i < 36 ensures if IsDashPosition(i) then u[i] == '-' else IsHexIgnoringCase(u[i]) { }
  }

  /** The region of the scenario `new BeaconRegion("b1",
      "b9407f30-f5f8-466e-aff9-25556b57fe6d", 35387, 61546)` is built. */
  lemma EstimoteScenario()
    ensures NewBeacon(JStr("b1"), JStr("b9407f30-f5f8-466e-aff9-25556b57fe6d"),
                      JNum(35387.0), JNum(61546.0), JUndef).Success?
  {
    EstimoteUuidShape();
  }
}

=== FILE: bridge.dfy ===
/** What the JavaScript side does to the outside world, recorded in order.

    The Cordova `exec` bridge is asynchronous: a call hands a request to the
    native layer and later one of its two callbacks receives the reply. The
    model records the request, with enough about its callbacks to say what
    a reply will do, and leaves the delivery of replies to separate
    functions. Console output and calls of application functions are
    recorded the same way, so that "nothing happened" is a statement about
    a trace. */
module Bridge {
  import opened JsValues

  /** What the callbacks handed to `exec` do with the reply. */
  datatype ReplyRoute =
    | Promise(preProcessors: seq<FuncId>)  // `_promisedExec`: pre-process, then resolve; reject on error
    | DelegateChannel                      // `_registerDelegateCallbackId`: both go to `_onDelegateCallback`
    | LegacyCallbacks                      // `ibeacon.js`: the caller's success and error callbacks

  /** The reasons the facade and the delegate write to `console.error`.
      `Regions.fromJson`'s complaint about an unknown type name is not
      traced. */
  datatype Complaint =
    | NotADelegate                  // setDelegate with something that is not a Delegate
    | LateUntaggedCallback          // a callback without eventType after the handshake
    | UnhandledEvent(eventType: string)  // no function on the delegate under eventType
    | TraceLoggingFailed            // safeTraceLogging caught an exception

  datatype Effect =
    | Exec(service: string, action: string, args: seq<JsValue>, route: ReplyRoute)
      /** The `appendToDeviceLog` request `_onDelegateCallback` makes, whose
          text embeds `JSON.stringify` of the payload. */
    | DumpCallback(payload: JsValue)
    | Invoke(handler: FuncId, argument: JsValue)
    | ConsoleError(complaint: Complaint)

  const Service: string := "LocationManager"

  /** The request `_promisedExec(action, args, preProcessors)` makes once its
      arguments are normalised. */
  function Request(action: string, args: seq<JsValue>, preProcessors: seq<FuncId>): Effect {
    Exec(Service, action, args, Promise(preProcessors))
  }

  /** `LocationManager.prototype.appendToDeviceLog(message)`. */
  function LogRequest(message: JsValue): Effect {
    Request("appendToDeviceLog", [message], [])
  }

  predicate IsRequest(e: Effect) { e.Exec? }

  /** The native requests in a trace, in order: the `Exec` entries. The
      callback dumps (`DumpCallback`) also reach the native layer as
      `appendToDeviceLog` requests, but are not counted here. */
  function Requests(trace: seq<Effect>): (r: seq<Effect>)
    ensures |r| <= |trace|
    ensures forall i :: 0 <= i < |r| ==> r[i].Exec? && r[i] in trace
    ensures (forall i :: 0 <= i < |trace| ==> !trace[i].Exec?) ==> r == []
  {
    if trace == [] then []
    else (if trace[0].Exec? then [trace[0]] else []) + Requests(trace[1..])
  }

  lemma {:induction false} RequestsAppend(a: seq<Effect>, b: seq<Effect>)
    ensures Requests(a + b) == Requests(a) + Requests(b)
  {
    if a != [] {
      assert (a + b)[1..] == a[1..] + b;
      RequestsAppend(a[1..], b);
    } else {
      assert a + b == b;
    }
  }
}

=== FILE: circular_region.dfy ===
/** `CircularRegion`: a geofence given by a centre and a radius, each
    checked in turn after the identifier. */
module CircularRegions {
  import opened Wrappers
  import opened JsValues
  import opened JsErrors
  import opened BaseRegion

  /** `v > x` for a JavaScript number (NaN compares false). */
  predicate NumberAbove(v: JsValue, x: real)
    requires IsNumber(v)
  {
    match v
    case JNum(n) => n > x
    case JInf(positive) => positive
    case JNaN => false
  }

  /** `v < x` for a JavaScript number (NaN compares false). */
  predicate NumberBelow(v: JsValue, x: real)
    requires IsNumber(v)
  {
    match v
    case JNum(n) => n < x
    case JInf(positive) => !positive
    case JNaN => false
  }

  /** The shared shape of `checkLatitude` and `checkLongitude`: NaN, then a
      non-number, are `TypeError`s; a number outside [-bound, bound] is a
      plain `Error`. */
  function CheckCoordinate(c: Coordinate, v: JsValue, bound: real): Result<(), Exception>
  {
    if IsNaN(v) then Failure(CoordinateNaN(c))
    else if !IsNumber(v) then Failure(CoordinateNotNumber(c, v))
    else if NumberAbove(v, bound) || NumberBelow(v, -bound) then Failure(CoordinateOutOfRange(c, v))
    else Success(())
  }

  predicate ValidLatitude(v: JsValue) { v.JNum? && -90.0 <= v.n <= 90.0 }

  predicate ValidLongitude(v: JsValue) { v.JNum? && -180.0 <= v.n <= 180.0 }

  /** A radius is any number that is not NaN and not below zero: there is no
      upper bound and no finiteness check, so +Infinity passes. */
  predicate ValidRadius(v: JsValue) { (v.JNum? && v.n >= 0.0) || v == JInf(true) }

  /** True when NaN or a non-number is the culprit, which `CircularRegion`
      reports as a `TypeError`. */
  predicate NotANumberCulprit(v: JsValue) { !(v.JNum? || v.JInf?) }

  /** `CircularRegion.checkLatitude`. */
  function CheckLatitude(latitude: JsValue): (r: Result<(), Exception>)
    ensures r.Success? <==> ValidLatitude(latitude)
    ensures r.Failure? ==> (r.error.Kind() == TypeError <==> NotANumberCulprit(latitude))
  {
    CheckCoordinate(Latitude, latitude, 90.0)
  }

  /** `CircularRegion.checkLongitude`. */
  function CheckLongitude(longitude: JsValue): (r: Result<(), Exception>)
    ensures r.Success? <==> ValidLongitude(longitude)
    ensures r.Failure? ==> (r.error.Kind() == TypeError <==> NotANumberCulprit(longitude))
  {
    CheckCoordinate(Longitude, longitude, 180.0)
  }

  /** `CircularRegion.checkRadius`. */
  function CheckRadius(radius: JsValue): (r: Result<(), Exception>)
    ensures r.Success? <==> ValidRadius(radius)
    ensures r.Failure? ==> (r.error.Kind() == TypeError <==> NotANumberCulprit(radius))
  {
    if IsNaN(radius) then Failure(CoordinateNaN(Radius))
    else if !IsNumber(radius) then Failure(CoordinateNotNumber(Radius, radius))
    else if NumberBelow(radius, 0.0) then Failure(CoordinateOutOfRange(Radius, radius))
    else Success(())
  }

  /** `new CircularRegion(identifier, latitude, longitude, radius)`: the
      checks run identifier, latitude, longitude, radius, and the first one
      that fails decides the exception. On success the four values are
      stored as given and `typeName` is "CircularRegion". */
  function NewCircular(identifier: JsValue, latitude: JsValue, longitude: JsValue, radius: JsValue)
    : (r: Result<Region, Exception>)
    ensures r.Success? <==> IsValidIdentifier(identifier) && ValidLatitude(latitude)
                            && ValidLongitude(longitude) && ValidRadius(radius)
    ensures r.Success? ==>
              r.value.Circular? && JStr(r.value.identifier) == identifier
              && r.value.latitude == latitude && r.value.longitude == longitude
              && r.value.radius == radius && RegionTypeName(r.value) == JStr("CircularRegion")
    ensures !IsValidIdentifier(identifier) ==> r == Failure(CheckIdentifier(identifier).error)
    ensures IsValidIdentifier(identifier) && !ValidLatitude(latitude) ==>
              r == Failure(CheckLatitude(latitude).error)
    ensures IsValidIdentifier(identifier) && ValidLatitude(latitude) && !ValidLongitude(longitude) ==>
              r == Failure(CheckLongitude(longitude).error)
    ensures (IsValidIdentifier(identifier) && ValidLatitude(latitude) && ValidLongitude(longitude)
             && !ValidRadius(radius)) ==> r == Failure(CheckRadius(radius).error)
  {
    var id :- CheckIdentifier(identifier);
    var _ :- CheckLatitude(latitude);
    var _ :- CheckLongitude(longitude);
    var _ :- CheckRadius(radius);
    Success(Circular(id, latitude, longitude, radius))
  }

  /** The invariant every circular region built by the constructor keeps. */
  predicate ValidCircular(r: Region)
    requires r.Circular?
  {
    |r.identifier| > 0 && ValidLatitude(r.latitude) && ValidLongitude(r.longitude)
    && ValidRadius(r.radius)
  }
}

=== FILE: decimal.dfy ===
/** Decimal text of numbers, as JavaScript reads and writes it.

    `NatToDecimal` is how an array index becomes a property key and how a
    16-bit beacon identifier is written out; `DecimalValue` is the part of
    JavaScript's string-to-number conversion the plugin relies on (a signed
    decimal literal, possibly with a fraction, surrounded by white space). */
module Decimal {
  import opened Wrappers

  predicate IsDigit(c: char) { '0' <= c <= '9' }

  predicate AllDigits(s: string) { forall i :: 0 <= i < |s| ==> IsDigit(s[i]) }

  function DigitOf(c: char): nat
    requires IsDigit(c)
  {
    (c as int) - ('0' as int)
  }

  function DigitChar(d: nat): (c: char)
    requires d < 10
    ensures IsDigit(c) && DigitOf(c) == d
  {
    (('0' as int) + d) as char
  }

  /** The canonical decimal text of a natural number (no sign, no leading zeros). */
  function NatToDecimal(n: nat): (s: string)
    ensures |s| > 0 && AllDigits(s)
    ensures n >= 10 ==> s[0] != '0'
  {
    if n < 10 then [DigitChar(n)] else NatToDecimal(n / 10) + [DigitChar(n % 10)]
  }

  /** The value of a string of decimal digits, most significant first. */
  function DigitsValue(ds: string): nat
    requires AllDigits(ds)
  {
    if ds == [] then 0 else DigitsValue(ds[..|ds| - 1]) * 10 + DigitOf(ds[|ds| - 1])
  }

  /** The value of the digits after a decimal point. */
  function FractionValue(ds: string): real
    requires AllDigits(ds)
  {
    if ds == [] then 0.0 else ((DigitOf(ds[0]) as real) + FractionValue(ds[1..])) / 10.0
  }

  /** White space and line terminators in the sense of ECMAScript's
      StrWhiteSpaceChar, which `Number(s)` strips and `\s` matches. */
  predicate IsJsWhitespace(c: char) {
    var n := c as int;
    n == 0x09 || n == 0x0A || n == 0x0B || n == 0x0C || n == 0x0D || n == 0x20
    || n == 0xA0 || n == 0x1680 || (0x2000 <= n <= 0x200A) || n == 0x2028
    || n == 0x2029 || n == 0x202F || n == 0x205F || n == 0x3000 || n == 0xFEFF
  }

  predicate AllWhitespace(s: string) { forall i :: 0 <= i < |s| ==> IsJsWhitespace(s[i]) }

  function TrimStart(s: string): (t: string)
    ensures |t| <= |s|
    ensures t == s[|s| - |t|..]
    ensures |t| > 0 ==> !IsJsWhitespace(t[0])
    ensures AllWhitespace(s[..|s| - |t|])
  {
    if |s| > 0 && IsJsWhitespace(s[0]) then
      var t := TrimStart(s[1..]);
      assert s[1..][..|s[1..]| - |t|] == s[1..|s| - |t|];
      t
    else s
  }

  function TrimEnd(s: string): (t: string)
    ensures |t| <= |s|
    ensures t == s[..|t|]
    ensures |t| > 0 ==> !IsJsWhitespace(t[|t| - 1])
    ensures AllWhitespace(s[|t|..])
  {
    if |s| > 0 && IsJsWhitespace(s[|s| - 1]) then
      var t := TrimEnd(s[..|s| - 1]);
      assert s[..|s| - 1][|t|..] == s[|t|..|s| - 1];
      t
    else s
  }

  function Trim(s: string): string { TrimEnd(TrimStart(s)) }

  /** The index of the first '.' in `s`, if any. */
  function DotIndex(s: string): (r: Option<nat>)
    ensures r.Some? ==> r.value < |s| && s[r.value] == '.' && '.' !in s[..r.value]
    ensures r.None? ==> '.' !in s
  {
    if s == [] then None
    else if s[0] == '.' then Some(0)
    else match DotIndex(s[1..])
      case None => None
      case Some(k) => assert s[..k + 1] == [s[0]] + s[1..][..k]; Some(k + 1)
  }

  /** An unsigned decimal literal: digits, optionally a point and more digits,
      with at least one digit in all (`5`, `5.`, `.5`, `5.25`). */
  function UnsignedDecimalValue(u: string): Option<real>
  {
    match DotIndex(u)
    case None =>
      if |u| > 0 && AllDigits(u) then Some(DigitsValue(u) as real) else None
    case Some(k) =>
      var whole, fraction := u[..k], u[k + 1..];
      if AllDigits(whole) && AllDigits(fraction) && |whole| + |fraction| > 0
      then Some(DigitsValue(whole) as real + FractionValue(fraction))
      else None
  }

  /** The exact value of a string holding a signed decimal literal between
      optional white space; `None` for every other string. `Number(s)`
      rounds this value to the nearest double, which the model does not:
      it can differ in the last places, and a literal too large for a double
      is Infinity in JavaScript. */
  function DecimalValue(s: string): Option<real>
  {
    var t := Trim(s);
    if |t| > 0 && (t[0] == '+' || t[0] == '-') then
      match UnsignedDecimalValue(t[1..])
      case None => None
      case Some(v) => Some(if t[0] == '-' then -v else v)
    else UnsignedDecimalValue(t)
  }

  lemma {:induction false} DigitsValueOfNat(n: nat)
    ensures DigitsValue(NatToDecimal(n)) == n
  {
    if n >= 10 {
      var p := NatToDecimal(n / 10);
      var s := NatToDecimal(n);
      assert s == p + [DigitChar(n % 10)];
      assert s[..|s| - 1] == p;
      DigitsValueOfNat(n / 10);
    }
  }

  /** Reading back the decimal text of a natural number gives the number:
      the text a beacon identifier is written as converts to its value. */
  lemma DecimalValueOfNat(n: nat)
    ensures DecimalValue(NatToDecimal(n)) == Some(n as real)
  {
    var s := NatToDecimal(n);
    assert !IsJsWhitespace(s[0]) && !IsJsWhitespace(s[|s| - 1]);
    assert TrimStart(s) == s;
    assert Trim(s) == s;
    assert s[0] != '+' && s[0] != '-';
    assert forall i :: 0 <= i < |s| ==> s[i] != '.';
    assert '.' !in s;
    DigitsValueOfNat(n);
  }

  /** Distinct numbers have distinct decimal texts. */
  lemma NatToDecimalInjective(m: nat, n: nat)
    requires NatToDecimal(m) == NatToDecimal(n)
    ensures m == n
  {
    DigitsValueOfNat(m);
    DigitsValueOfNat(n);
  }

  function Pow10(k: nat): (p: nat)
    ensures p >= 1
  {
    if k == 0 then 1 else 10 * Pow10(k - 1)
  }

  /** A number of at least 10^k needs more than k digits. */
  lemma {:induction false} NatToDecimalLength(n: nat, k: nat)
    requires n >= Pow10(k)
    ensures |NatToDecimal(n)| > k
  {
    if k > 0 {
      assert n >= 10;
      assert n / 10 >= Pow10(k - 1);
      NatToDecimalLength(n / 10, k - 1);
    }
  }
}

=== FILE: delegate.dfy ===
/** `Delegate`: the object application code hands to the manager to receive
    events, its nine no-op default handlers, and the static pre-processors
    that turn the `region` of an event payload back into a region instance. */
module Delegates {
  import opened Wrappers
  import opened JsValues
  import opened JsErrors
  import opened RegionCodec
  import opened Bridge

  /** The seven events whose payload carries a region. */
  predicate IsRegionEvent(event: string) {
    event in DelegateEventNames[..7]
  }

  /** The static pre-processor `Delegate.<event>(pluginResult)`, which
      assigns `pluginResult.region = Regions.fromJson(pluginResult.region)`
      for the seven region-bearing events and does nothing for
      `peripheralManagerDidUpdateState` and `didChangeAuthorizationStatus`.
      The payload is updated in place in the source; here the updated
      payload is the result. Only objects can be given a new property: for
      any other payload `region` reads as `undefined` and decoding throws
      before the assignment. */
  function PreProcess(event: string, payload: JsValue): (r: Result<JsValue, Exception>)
    requires event in DelegateEventNames
    ensures !IsRegionEvent(event) ==> r == Success(payload)
    ensures IsRegionEvent(event) && IsNullish(payload) ==> r == Failure(PropertyOfNullish("region"))
    ensures IsRegionEvent(event) && !IsNullish(payload) ==>
              (r.Success? <==> (payload.JObj? || payload.JDelegate?)
                               && FromJson(Prop(payload, "region")).Success?)
    ensures IsRegionEvent(event) && !IsNullish(payload) && FromJson(Prop(payload, "region")).Failure? ==>
              r == Failure(FromJson(Prop(payload, "region")).error)
    ensures IsRegionEvent(event) && r.Success? ==>
              !IsNullish(r.value)
              && Prop(r.value, "region") == RegionOrNull(FromJson(Prop(payload, "region")).value)
              && forall key :: key != "region" ==> Prop(r.value, key) == Prop(payload, key)
  {
    if !IsRegionEvent(event) then Success(payload)
    else if IsNullish(payload) then Failure(PropertyOfNullish("region"))
    else
      var region :- FromJson(Prop(payload, "region"));
      if payload.JObj? || payload.JDelegate? then Success(SetProp(payload, "region", RegionOrNull(region)))
      else
        // `region` of any other value is `undefined`, on which `fromJson` throws
        Failure(PropertyOfNullish("typeName"))
  }

  /** Pre-processing a payload a second time: a decoded region decodes to
      itself, so the payload is unchanged; but a `null` left by an unknown
      `typeName` now makes `fromJson` throw. */
  lemma PreProcessTwice(event: string, payload: JsValue)
    requires event in DelegateEventNames && PreProcess(event, payload).Success?
    ensures IsRegionEvent(event) && Prop(PreProcess(event, payload).value, "region").JNull? ==>
              PreProcess(event, PreProcess(event, payload).value) == Failure(PropertyOfNullish("typeName"))
    ensures !(IsRegionEvent(event) && Prop(PreProcess(event, payload).value, "region").JNull?) ==>
              PreProcess(event, PreProcess(event, payload).value) == PreProcess(event, payload)
  {
    var once := PreProcess(event, payload).value;
    if IsRegionEvent(event) {
      var decoded := FromJson(Prop(payload, "region")).value;
      if decoded.Some? {
        DecodeDecoded(decoded.value);
        var again := PreProcess(event, once).value;
        assert forall key :: Prop(again, key) == Prop(once, key);
        SameProperties(again, once);
      }
    }
  }

  /** Two objects of the same kind with the same properties are equal. */
  lemma SameProperties(a: JsValue, b: JsValue)
    requires (a.JObj? && b.JObj?) || (a.JDelegate? && b.JDelegate?)
    requires forall key :: Prop(a, key) == Prop(b, key)
    requires a.JObj? ==> forall key :: key in a.fields <==> key in b.fields
    requires a.JDelegate? ==> forall key :: key in a.delegate.own <==> key in b.delegate.own
    ensures a == b
  {
    if a.JObj? {
      forall key | key in a.fields ensures a.fields[key] == b.fields[key] {
        assert Prop(a, key) == Prop(b, key);
      }
    } else {
      forall key | key in a.delegate.own ensures a.delegate.own[key] == b.delegate.own[key] {
        assert Prop(a, key) == Prop(b, key);
      }
    }
  }

  /** `new Delegate()`: no own properties. */
  function NewDelegate(): (d: DelegateObject)
    ensures forall name :: IsFunction(Prop(JDelegate(d), name)) <==> name in DelegateEventNames
    ensures forall name :: name in DelegateEventNames ==> Prop(JDelegate(d), name) == JFunc(DefaultHandler(name))
  {
    DelegateObject(map[])
  }

  /** The message each default handler logs. */
  function DefaultMessage(name: string): string {
    "DEFAULT " + name + "()"
  }

  /** `Delegate.safeTraceLogging(message)`: a non-string is ignored; a string
      goes to `appendToDeviceLog`, and if that call throws the exception is
      caught and reported on the console. The result is the effects; the
      function has no failure outcome, which is the point. */
  function SafeTraceLogging(message: JsValue, loggerThrows: bool): (effects: seq<Effect>)
    ensures !IsString(message) ==> effects == []
    ensures IsString(message) ==> |effects| == 1
    ensures IsString(message) && !loggerThrows ==> effects == [LogRequest(message)]
    ensures loggerThrows ==> Requests(effects) == []
    ensures IsString(message) && loggerThrows ==> effects == [ConsoleError(TraceLoggingFailed)]
  {
    if !IsString(message) then []
    else if loggerThrows then [ConsoleError(TraceLoggingFailed)]
    else [LogRequest(message)]
  }

  /** The effects of calling the handler `f`. The default handlers only log
      "DEFAULT <name>()"; what application functions do is not modelled. */
  function HandlerEffects(f: FuncId): (effects: seq<Effect>)
    ensures f.DefaultHandler? ==> effects == [LogRequest(JStr(DefaultMessage(f.event)))]
    ensures !f.DefaultHandler? ==> effects == []
  {
    match f
    case DefaultHandler(name) => SafeTraceLogging(JStr(DefaultMessage(name)), false)
    case _ => []
  }
}

=== FILE: ibeacon.dfy ===
/** `ibeacon.js`, the legacy API: a `CLBeaconRegion` model object whose
    fields are checked again before every native call, and thin wrappers
    that send one request per region to the `IBeacon` service. */
module LegacyIBeacon {
  import opened Wrappers
  import opened Decimal
  import opened JsValues
  import opened JsErrors
  import opened Bridge

  /** Whether `String(v)` is whitespace only, where an array converts by
      joining its elements' texts with commas and a `null` or `undefined`
      element converts to the empty text. Objects of other kinds convert to
      non-blank text ("[object Object]", "true", a number's digits, ...). */
  predicate TextIsBlank(v: JsValue) {
    match v
    case JStr(s) => AllWhitespace(s)
    case JArr(items) => |items| == 0 || (|items| == 1 && ElementTextIsBlank(items[0]))
    case _ => false
  }

  predicate ElementTextIsBlank(v: JsValue) {
    match v
    case JUndef => true
    case JNull => true
    case JStr(s) => AllWhitespace(s)
    case JArr(items) => |items| == 0 || (|items| == 1 && ElementTextIsBlank(items[0]))
    case _ => false
  }

  /** `isBlank(str)`: falsy, or whitespace only once converted to text. */
  function IsBlank(v: JsValue): (b: bool)
    ensures v.JStr? ==> (b <==> AllWhitespace(v.s))
    ensures IsNumber(v) ==> (b <==> !Truthy(v))
    ensures IsNullish(v) ==> b
    ensures v.JArr? ==> (b <==> TextIsBlank(v))
  {
    !Truthy(v) || TextIsBlank(v)
  }

  predicate IsIntegral(x: real) { x.Floor as real == x }

  /** `parseInt(x) === x`: only a number can equal what `parseInt` returns,
      and only an integral one whose text has no exponent, which JavaScript
      uses from 1e21 on. NaN and the infinities fail, so the `=== NaN`
      clause after it in the source can never decide anything. */
  predicate ParsesToItself(v: JsValue) {
    v.JNum? && IsIntegral(v.n) && -1.0e21 < v.n < 1.0e21
  }

  /** `CLBeaconRegion.prototype.validateFields`: uuid, major, minor,
      identifier in that order, every failure a `TypeError`. There is no
      range check on major and minor, no format check on the uuid, and a
      missing major or minor is refused. */
  function ValidateFields(c: CLBeaconRegion): (r: Result<(), Exception>)
    ensures r.Success? <==> !IsBlank(c.uuid) && ParsesToItself(c.major) && ParsesToItself(c.minor)
                            && !IsBlank(c.identifier)
    ensures r.Failure? ==> r.error.Kind() == TypeError
    ensures IsBlank(c.uuid) ==> r == Failure(LegacyUuidBlank)
    ensures !IsBlank(c.uuid) && !ParsesToItself(c.major) ==> r == Failure(LegacyMajorNotInteger)
    ensures !IsBlank(c.uuid) && ParsesToItself(c.major) && !ParsesToItself(c.minor) ==>
              r == Failure(LegacyMinorNotInteger)
  {
    if IsBlank(c.uuid) then Failure(LegacyUuidBlank)
    else if !ParsesToItself(c.major) then Failure(LegacyMajorNotInteger)
    else if !ParsesToItself(c.minor) then Failure(LegacyMinorNotInteger)
    else if IsBlank(c.identifier) then Failure(LegacyIdentifierBlank)
    else Success(())
  }

  /** `new CLBeaconRegion(uuid, major, minor, identifier, notifyEntryStateOnDisplay)`.
      `typeof` never yields 'Boolean' (it yields 'boolean'), so the flag is
      always `true`, whatever was passed. */
  function NewCLBeaconRegion(uuid: JsValue, major: JsValue, minor: JsValue, identifier: JsValue,
                             notifyEntryStateOnDisplay: JsValue): (r: Result<CLBeaconRegion, Exception>)
    ensures r.Success? <==> ValidateFields(CLBeaconRegion(uuid, major, minor, identifier, JBool(true))).Success?
    ensures r.Success? ==> r.value == CLBeaconRegion(uuid, major, minor, identifier, JBool(true))
    ensures r.Success? ==> r.value.notifyEntryStateOnDisplay == JBool(true)
  {
    var region := CLBeaconRegion(uuid, major, minor, identifier, JBool(true));
    var _ :- ValidateFields(region);
    Success(region)
  }

  /** The flag passed in is lost, `false` included. */
  lemma NotifyFlagIgnored(uuid: JsValue, major: JsValue, minor: JsValue, identifier: JsValue, flag: JsValue)
    ensures NewCLBeaconRegion(uuid, major, minor, identifier, flag)
            == NewCLBeaconRegion(uuid, major, minor, identifier, JBool(true))
  { }

  /** The constructor as its comment and its `typeof` test evidently intend:
      a boolean flag is kept, anything else becomes `true`. */
  function NewCLBeaconRegionIntended(uuid: JsValue, major: JsValue, minor: JsValue, identifier: JsValue,
                                     notifyEntryStateOnDisplay: JsValue): (r: Result<CLBeaconRegion, Exception>)
    ensures r.Success? <==> NewCLBeaconRegion(uuid, major, minor, identifier, notifyEntryStateOnDisplay).Success?
    ensures r.Success? && notifyEntryStateOnDisplay.JBool? ==>
              r.value.notifyEntryStateOnDisplay == notifyEntryStateOnDisplay
    ensures r.Success? && !notifyEntryStateOnDisplay.JBool? ==> r.value.notifyEntryStateOnDisplay == JBool(true)
    ensures r.Success? ==> r.value.uuid == uuid && r.value.major == major && r.value.minor == minor
                           && r.value.identifier == identifier
  {
    var flag := if notifyEntryStateOnDisplay.JBool? then notifyEntryStateOnDisplay else JBool(true);
    var region := CLBeaconRegion(uuid, major, minor, identifier, flag);
    var _ :- ValidateFields(region);
    Success(region)
  }

  /** A region built with `false` notifies on display as written, and does
      not with the intended constructor. */
  lemma NotifyFalseLost()
    ensures var built := NewCLBeaconRegion(JStr("u"), JNum(1.0), JNum(2.0), JStr("id"), JBool(false));
            built.Success? && built.value.notifyEntryStateOnDisplay == JBool(true)
    ensures var built := NewCLBeaconRegionIntended(JStr("u"), JNum(1.0), JNum(2.0), JStr("id"), JBool(false));
            built.Success? && built.value.notifyEntryStateOnDisplay == JBool(false)
  {
    assert !IsJsWhitespace("u"[0]) && !IsJsWhitespace("id"[0]);
    assert IsIntegral(1.0) && IsIntegral(2.0);
  }

  /** `IBeacon.prototype.validateRegion`. */
  function ValidateRegion(region: JsValue): (r: Result<(), Exception>)
    ensures r.Success? <==> region.JCLBeacon? && ValidateFields(region.clb).Success?
    ensures !region.JCLBeacon? ==> r == Failure(NotACLBeaconRegion)
    ensures r.Failure? ==> r.error.Kind() == TypeError
  {
    if !region.JCLBeacon? then Failure(NotACLBeaconRegion) else ValidateFields(region.clb)
  }

  /** `i < length` for a numeric `length` (NaN compares false). */
  predicate BelowLength(i: nat, length: JsValue)
    requires IsNumber(length)
  {
    match length
    case JNum(n) => (i as real) < n
    case JInf(positive) => positive
    case JNaN => false
  }

  /** What `isArrayOfBeacons` answers: the value is truthy, its `length` is
      a number, and every index the loop visits holds a `CLBeaconRegion`.
      Anything with a numeric `length` qualifies, so an empty array, a
      length of 0, NaN or -Infinity, and a function of no parameters all
      give `true`. */
  ghost predicate ArrayOfBeacons(v: JsValue) {
    Truthy(v) && !IsNullish(v) && IsNumber(Prop(v, "length"))
    && forall i: nat :: BelowLength(i, Prop(v, "length")) ==> ElementAt(v, i).JCLBeacon?
  }

  /** An upper bound on the keys of a finite map. */
  ghost function MaxKeyLength(keys: set<string>): (n: nat)
    ensures forall k :: k in keys ==> |k| <= n
    decreases keys
  {
    if keys == {} then 0
    else
      var k :| k in keys;
      var rest := MaxKeyLength(keys - {k});
      if |k| > rest then |k| else rest
  }

  /** Every value has an index that holds no `CLBeaconRegion`: the element
      lists of arrays and strings end, and an object has finitely many
      properties, so some decimal index is not among them. */
  lemma NotEveryIndexHoldsABeacon(v: JsValue) returns (i: nat)
    requires !IsNullish(v)
    ensures !ElementAt(v, i).JCLBeacon?
  {
    if v.JArr? {
      i := |v.items|;
    } else if v.JStr? {
      i := |v.s|;
    } else if v.JObj? {
      i := FreshDecimalKey(v.fields.Keys);
    } else if v.JDelegate? {
      i := FreshDecimalKey(v.delegate.own.Keys);
    } else {
      i := 0;
    }
  }

  /** A finite set of property names misses some decimal index. */
  lemma FreshDecimalKey(keys: set<string>) returns (i: nat)
    ensures NatToDecimal(i) !in keys
  {
    var bound := MaxKeyLength(keys);
    i := Pow10(bound);
    NatToDecimalLength(i, bound);
  }

  /** `IBeacon.prototype.isArrayOfBeacons`: the source's loop over indices
      below `length`, stopping at the first element that is not a
      `CLBeaconRegion`. An infinite `length` still ends, at the first index
      past the value's elements. */
  method IsArrayOfBeacons(v: JsValue) returns (b: bool)
    ensures b == ArrayOfBeacons(v)
  {
    if !Truthy(v) || IsNullish(v) {
      return false;
    }
    var length := Prop(v, "length");
    if !IsNumber(length) {
      return false;
    }
    ghost var last := NotEveryIndexHoldsABeacon(v);
    var i: nat := 0;
    while BelowLength(i, length)
      invariant i <= last
      invariant forall j: nat :: j < i ==> ElementAt(v, j).JCLBeacon?
      decreases last - i
    {
      if !ElementAt(v, i).JCLBeacon? {
        assert !ArrayOfBeacons(v);
        return false;
      }
      i := i + 1;
    }
    IndicesBelowLength(i, length);
    return true;
  }

  /** The indices below a length form an initial segment. */
  lemma BelowLengthDownward(i: nat, j: nat, length: JsValue)
    requires IsNumber(length) && j <= i && BelowLength(i, length)
    ensures BelowLength(j, length)
  { }

  /** Once an index is not below the length, no later index is. */
  lemma IndicesBelowLength(i: nat, length: JsValue)
    requires IsNumber(length) && !BelowLength(i, length)
    ensures forall j: nat :: BelowLength(j, length) ==> j < i
  {
    forall j: nat | BelowLength(j, length) ensures j < i {
      if j >= i { BelowLengthDownward(j, i, length); }
    }
  }

  /** An array of beacons never has an infinite `length`. */
  lemma ArrayOfBeaconsHasFiniteLength(v: JsValue)
    requires ArrayOfBeacons(v)
    ensures Prop(v, "length") != JInf(true)
  {
    var i := NotEveryIndexHoldsABeacon(v);
  }

  /** The four actions `callObjCRuntime` lets through. */
  const ValidActions: seq<string> :=
    ["startMonitoringForRegion", "stopMonitoringForRegion", "startRangingBeaconsInRegion",
     "stopRangingBeaconsInRegion"]

  /** The request sent for one region. */
  function LegacyRequest(action: string, region: JsValue): Effect {
    Exec("IBeacon", action, [region], LegacyCallbacks)
  }

  /** `IBeacon.prototype.callObjCRuntime(actionName, region, ...)`: the region
      is validated first (`TypeError`), then the action must be one of the
      four (a plain `Error`), and only then is the request sent. */
  function CallObjCRuntime(actionName: JsValue, region: JsValue): (r: Result<Effect, Exception>)
    ensures r.Success? <==> ValidateRegion(region).Success? && actionName.JStr? && actionName.s in ValidActions
    ensures ValidateRegion(region).Failure? ==> r == Failure(ValidateRegion(region).error)
    ensures ValidateRegion(region).Success? && !(actionName.JStr? && actionName.s in ValidActions) ==>
              r == Failure(InvalidOperation(actionName)) && r.error.Kind() == PlainError
    ensures r.Success? ==> r.value == LegacyRequest(actionName.s, region)
  {
    var _ :- ValidateRegion(region);
    if !(actionName.JStr? && actionName.s in ValidActions) then Failure(InvalidOperation(actionName))
    else Success(LegacyRequest(actionName.s, region))
  }

  datatype LegacyOperation =
    StartMonitoringForRegion | StopMonitoringForRegion | StartRangingBeaconsInRegion | StopRangingBeaconsInRegion

  function LegacyOperationName(op: LegacyOperation): (name: string)
    ensures name in ValidActions
  {
    match op
    case StartMonitoringForRegion => ValidActions[0]
    case StopMonitoringForRegion => ValidActions[1]
    case StartRangingBeaconsInRegion => ValidActions[2]
    case StopRangingBeaconsInRegion => ValidActions[3]
  }

  /** The single-region wrappers: some validate the region before
      `callObjCRuntime` validates it again, which changes nothing. Every
      operation's action passes the whitelist, so only the region can be
      refused. */
  function SingleCall(op: LegacyOperation, region: JsValue): (r: Result<Effect, Exception>)
    ensures r.Success? <==> ValidateRegion(region).Success?
    ensures r.Failure? ==> r.error.Kind() == TypeError
    ensures r.Success? ==> r.value == LegacyRequest(LegacyOperationName(op), region)
  {
    var _ :- ValidateRegion(region);
    CallObjCRuntime(JStr(LegacyOperationName(op)), region)
  }

  /** The batch wrappers (`startMonitoringForRegions` and the others): the
      whole value must pass `isArrayOfBeacons` before any request is sent;
      then one request per index, in index order. `isArrayOfBeacons` only
      checks that each element is a `CLBeaconRegion`, not its fields, so an
      element whose fields were changed after construction stops the walk
      with its exception after the requests for the elements before it have
      been sent. */
  method BatchCall(op: LegacyOperation, regions: JsValue) returns (sent: seq<Effect>, error: Option<Exception>)
    ensures !ArrayOfBeacons(regions) ==> sent == [] && error == Some(NotAnArrayOfBeacons)
    ensures forall k :: 0 <= k < |sent| ==>
              ValidateRegion(ElementAt(regions, k)).Success?
              && sent[k] == LegacyRequest(LegacyOperationName(op), ElementAt(regions, k))
    ensures ArrayOfBeacons(regions) && error.None? ==>
              forall i: nat :: BelowLength(i, Prop(regions, "length")) <==> i < |sent|
    ensures ArrayOfBeacons(regions) && error.Some? ==>
              BelowLength(|sent|, Prop(regions, "length"))
              && ValidateRegion(ElementAt(regions, |sent|)).Failure?
              && error == Some(ValidateRegion(ElementAt(regions, |sent|)).error)
  {
    var ok := IsArrayOfBeacons(regions);
    if !ok {
      return [], Some(NotAnArrayOfBeacons);
    }
    sent, error := SendEach(op, regions, Prop(regions, "length"));
  }

  /** Each request sent so far is the one for the element at its index,
      and that element passed `validateRegion`. */
  predicate SentInOrder(op: LegacyOperation, regions: JsValue, sent: seq<Effect>)
    requires !IsNullish(regions)
  {
    forall k :: 0 <= k < |sent| ==>
      ValidateRegion(ElementAt(regions, k)).Success?
      && sent[k] == LegacyRequest(LegacyOperationName(op), ElementAt(regions, k))
  }

  /** Sending the request for the next valid element keeps the order. */
  lemma SentOneMore(op: LegacyOperation, regions: JsValue, sent: seq<Effect>, request: Effect)
    requires !IsNullish(regions) && SentInOrder(op, regions, sent)
    requires ValidateRegion(ElementAt(regions, |sent|)).Success?
    requires request == LegacyRequest(LegacyOperationName(op), ElementAt(regions, |sent|))
    ensures SentInOrder(op, regions, sent + [request])
  { }

  /** The walk of a batch wrapper once the check has passed: a request per
      index below `length`, stopping at the first element that fails
      `validateRegion`. */
  method SendEach(op: LegacyOperation, regions: JsValue, length: JsValue) returns (sent: seq<Effect>, error: Option<Exception>)
    requires !IsNullish(regions) && IsNumber(length)
    ensures SentInOrder(op, regions, sent)
    ensures error.None? ==> forall i: nat :: BelowLength(i, length) <==> i < |sent|
    ensures error.Some? ==>
              BelowLength(|sent|, length)
              && ValidateRegion(ElementAt(regions, |sent|)).Failure?
              && error == Some(ValidateRegion(ElementAt(regions, |sent|)).error)
  {
    ghost var last := NotEveryIndexHoldsABeacon(regions);
    sent := [];
    var i: nat := 0;
    while BelowLength(i, length)
      invariant i == |sent| && i <= last
      invariant forall k: nat :: k < i ==> BelowLength(k, length)
      invariant SentInOrder(op, regions, sent)
      decreases last - i
    {
      var call := SingleCall(op, ElementAt(regions, i));
      if call.Failure? {
        return sent, Some(call.error);
      }
      SentOneMore(op, regions, sent, call.value);
      sent := sent + [call.value];
      i := i + 1;
    }
    IndicesBelowLength(i, length);
    error := None;
  }
}

=== FILE: interop.dfy ===
/** How the two halves of the plugin fit together: the requests the
    JavaScript facade sends and the actions the Android plugin dispatches,
    the regions Android serialises and the decoder on the JavaScript side,
    the regions JavaScript sends and Android's parser, and the events Android
    raises and the delegate that receives them.

    A value crosses the Cordova bridge as JSON: `undefined` properties are
    dropped on the way to Android, and what Android writes arrives as a
    plain object. */
module Interop {
  import opened Wrappers
  import opened JsValues
  import opened Decimal
  import opened UuidPattern
  import opened BeaconRegions
  import opened RegionCodec
  import opened Bridge
  import opened Delegates
  import M = Manager
  import A = AndroidLocationManager

  // ---- requests and actions ----

  /** The Android action serving each argument-less request. */
  function PlainAction(op: M.PlainOperation): (a: A.Action)
    ensures A.ActionName(a) == M.PlainOperationName(op)
  {
    if op.DisableDebugLogs? || op.EnableDebugLogs? || op.EnableDebugNotifications? || op.DisableDebugNotifications? then DebugAction(op)
    else if op.IsBluetoothEnabled? || op.EnableBluetooth? || op.DisableBluetooth? then BluetoothAction(op)
    else if op.StopAdvertising? || op.IsAdvertisingAvailable? || op.IsAdvertising? then AdvertisingAction(op)
    else if op.GetAuthorizationStatus? || op.RequestWhenInUseAuthorization? || op.RequestAlwaysAuthorization? then AuthorizationAction(op)
    else SetupAction(op)
  }

  /** The actions of the debugging switches. */
  function DebugAction(op: M.PlainOperation): (a: A.Action)
    requires op.DisableDebugLogs? || op.EnableDebugLogs? || op.EnableDebugNotifications? || op.DisableDebugNotifications?
    ensures A.ActionName(a) == M.PlainOperationName(op)
  {
    match op
    case DisableDebugLogs => assert A.ActionName(A.DisableDebugLogs) == M.PlainOperationName(op); A.DisableDebugLogs
    case EnableDebugLogs => assert A.ActionName(A.EnableDebugLogs) == M.PlainOperationName(op); A.EnableDebugLogs
    case EnableDebugNotifications => assert A.ActionName(A.EnableDebugNotifications) == M.PlainOperationName(op); A.EnableDebugNotifications
    case DisableDebugNotifications => assert A.ActionName(A.DisableDebugNotifications) == M.PlainOperationName(op); A.DisableDebugNotifications
  }

  /** The actions of the Bluetooth requests. */
  function BluetoothAction(op: M.PlainOperation): (a: A.Action)
    requires op.IsBluetoothEnabled? || op.EnableBluetooth? || op.DisableBluetooth?
    ensures A.ActionName(a) == M.PlainOperationName(op)
  {
    match op
    case IsBluetoothEnabled => assert A.ActionName(A.IsBluetoothEnabled) == M.PlainOperationName(op); A.IsBluetoothEnabled
    case EnableBluetooth => assert A.ActionName(A.EnableBluetooth) == M.PlainOperationName(op); A.EnableBluetooth
    case DisableBluetooth => assert A.ActionName(A.DisableBluetooth) == M.PlainOperationName(op); A.DisableBluetooth
  }

  /** The actions of the argument-less advertising requests. */
  function AdvertisingAction(op: M.PlainOperation): (a: A.Action)
    requires op.StopAdvertising? || op.IsAdvertisingAvailable? || op.IsAdvertising?
    ensures A.ActionName(a) == M.PlainOperationName(op)
  {
    match op
    case StopAdvertising => assert A.ActionName(A.StopAdvertising) == M.PlainOperationName(op); A.StopAdvertising
    case IsAdvertisingAvailable => assert A.ActionName(A.IsAdvertisingAvailable) == M.PlainOperationName(op); A.IsAdvertisingAvailable
    case IsAdvertising => assert A.ActionName(A.IsAdvertising) == M.PlainOperationName(op); A.IsAdvertising
  }

  /** The actions of the authorization requests. */
  function AuthorizationAction(op: M.PlainOperation): (a: A.Action)
    requires op.GetAuthorizationStatus? || op.RequestWhenInUseAuthorization? || op.RequestAlwaysAuthorization?
    ensures A.ActionName(a) == M.PlainOperationName(op)
  {
    match op
    case GetAuthorizationStatus => assert A.ActionName(A.GetAuthorizationStatus) == M.PlainOperationName(op); A.GetAuthorizationStatus
    case RequestWhenInUseAuthorization => assert A.ActionName(A.RequestWhenInUseAuthorization) == M.PlainOperationName(op); A.RequestWhenInUseAuthorization
    case RequestAlwaysAuthorization => assert A.ActionName(A.RequestAlwaysAuthorization) == M.PlainOperationName(op); A.RequestAlwaysAuthorization
  }

  /** The actions of the readiness signal and the ranging availability query. */
  function SetupAction(op: M.PlainOperation): (a: A.Action)
    requires op.OnDomDelegateReady? || op.IsRangingAvailable?
    ensures A.ActionName(a) == M.PlainOperationName(op)
  {
    match op
    case OnDomDelegateReady => assert A.ActionName(A.OnDomDelegateReady) == M.PlainOperationName(op); A.OnDomDelegateReady
    case IsRangingAvailable => assert A.ActionName(A.IsRangingAvailable) == M.PlainOperationName(op); A.IsRangingAvailable
  }

  /** The Android action serving each region-guarded request. */
  function RegionAction(op: M.RegionOperation): (a: A.Action)
    ensures A.ActionName(a) == M.RegionOperationName(op)
  {
    match op
    case StartMonitoringForRegion => assert A.ActionName(A.StartMonitoringForRegion) == M.RegionOperationName(op); A.StartMonitoringForRegion
    case StopMonitoringForRegion => assert A.ActionName(A.StopMonitoringForRegion) == M.RegionOperationName(op); A.StopMonitoringForRegion
    case RequestStateForRegion => assert A.ActionName(A.RequestStateForRegion) == M.RegionOperationName(op); A.RequestStateForRegion
    case IsMonitoringAvailableForClass => assert A.ActionName(A.IsMonitoringAvailableForClass) == M.RegionOperationName(op); A.IsMonitoringAvailableForClass
  }

  /** The Android action serving each ranging request. */
  function RangingAction(op: M.RangingOperation): (a: A.Action)
    ensures A.ActionName(a) == M.RangingOperationName(op)
  {
    match op
    case StartRangingBeaconsInRegion => assert A.ActionName(A.StartRangingBeaconsInRegion) == M.RangingOperationName(op); A.StartRangingBeaconsInRegion
    case StopRangingBeaconsInRegion => assert A.ActionName(A.StopRangingBeaconsInRegion) == M.RangingOperationName(op); A.StopRangingBeaconsInRegion
  }

  /** The actions of the facade's other requests: advertising, the two
      region lists, the device log and the delegate channel. */
  /** Android dispatches every action the JavaScript facade sends, so no
      request of the facade is answered with "invalid action". Each clause
      is about the request the facade operation itself appends to the
      trace. */
  lemma EveryFacadeRequestIsHandled()
    ensures forall op :: A.Execute(M.PlainOperationName(op))
    ensures forall op :: A.Execute(M.RegionOperationName(op))
    ensures forall op :: A.Execute(M.RangingOperationName(op))
    ensures forall m, op :: A.Execute(M.PlainRequest(m, op).trace[|m.trace|].action)
    ensures forall m, op, region :: M.RegionRequest(m, op, region).Success? ==>
              A.Execute(M.RegionRequest(m, op, region).value.trace[|m.trace|].action)
    ensures forall m, op, region :: M.RangingRequest(m, op, region).Success? ==>
              A.Execute(M.RangingRequest(m, op, region).value.trace[|m.trace|].action)
    ensures forall m, region, power :: M.StartAdvertising(m, region, power).Success? ==>
              A.Execute(M.StartAdvertising(m, region, power).value.trace[|m.trace|].action)
    ensures forall m, which :: A.Execute(M.GetRegions(m, which).trace[|m.trace|].action)
    ensures forall message :: A.Execute(LogRequest(message).action)
    ensures forall m, message :: A.Execute(M.AppendToDeviceLog(m, message).trace[|m.trace|].action)
    ensures A.Execute(M.NewManager().trace[1].action)
    ensures forall m, d: JsValue :: d.JDelegate? ==> A.Execute(M.SetDelegate(m, d).0.trace[|m.trace|].action)
  {
    forall op: M.PlainOperation ensures A.Execute(M.PlainOperationName(op)) {
      Handled(PlainAction(op), M.PlainOperationName(op));
    }
    forall op: M.RegionOperation ensures A.Execute(M.RegionOperationName(op)) {
      Handled(RegionAction(op), M.RegionOperationName(op));
    }
    forall op: M.RangingOperation ensures A.Execute(M.RangingOperationName(op)) {
      Handled(RangingAction(op), M.RangingOperationName(op));
    }
    PlainRequestsHandled();
    RegionRequestsHandled();
    RangingRequestsHandled();
    AdvertisingRequestHandled();
    GetRegionsRequestHandled();
    LogRequestsHandled();
    SetupRequestsHandled();
  }

  lemma PlainRequestsHandled()
    ensures forall m, op :: A.Execute(M.PlainRequest(m, op).trace[|m.trace|].action)
  {
    forall m: M.Manager, op: M.PlainOperation ensures A.Execute(M.PlainRequest(m, op).trace[|m.trace|].action) {
      Handled(PlainAction(op), M.PlainRequest(m, op).trace[|m.trace|].action);
    }
  }

  lemma RegionRequestsHandled()
    ensures forall m, op, region :: M.RegionRequest(m, op, region).Success? ==>
              A.Execute(M.RegionRequest(m, op, region).value.trace[|m.trace|].action)
  {
    forall m: M.Manager, op: M.RegionOperation, region: JsValue | M.RegionRequest(m, op, region).Success?
      ensures A.Execute(M.RegionRequest(m, op, region).value.trace[|m.trace|].action)
    {
      Handled(RegionAction(op), M.RegionRequest(m, op, region).value.trace[|m.trace|].action);
    }
  }

  lemma RangingRequestsHandled()
    ensures forall m, op, region :: M.RangingRequest(m, op, region).Success? ==>
              A.Execute(M.RangingRequest(m, op, region).value.trace[|m.trace|].action)
  {
    forall m: M.Manager, op: M.RangingOperation, region: JsValue | M.RangingRequest(m, op, region).Success?
      ensures A.Execute(M.RangingRequest(m, op, region).value.trace[|m.trace|].action)
    {
      Handled(RangingAction(op), M.RangingRequest(m, op, region).value.trace[|m.trace|].action);
    }
  }

  lemma AdvertisingRequestHandled()
    ensures forall m, region, power :: M.StartAdvertising(m, region, power).Success? ==>
              A.Execute(M.StartAdvertising(m, region, power).value.trace[|m.trace|].action)
  {
    forall m: M.Manager, region: JsValue, power: JsValue | M.StartAdvertising(m, region, power).Success?
      ensures A.Execute(M.StartAdvertising(m, region, power).value.trace[|m.trace|].action)
    {
      Handled(A.StartAdvertising, M.StartAdvertising(m, region, power).value.trace[|m.trace|].action);
    }
  }

  lemma GetRegionsRequestHandled()
    ensures forall m, which :: A.Execute(M.GetRegions(m, which).trace[|m.trace|].action)
  {
    forall m: M.Manager, which: M.RegionList ensures A.Execute(M.GetRegions(m, which).trace[|m.trace|].action) {
      if which == M.MonitoredRegions {
        Handled(A.GetMonitoredRegions, M.GetRegions(m, which).trace[|m.trace|].action);
      } else {
        Handled(A.GetRangedRegions, M.GetRegions(m, which).trace[|m.trace|].action);
      }
    }
  }

  lemma LogRequestsHandled()
    ensures forall message :: A.Execute(LogRequest(message).action)
    ensures forall m, message :: A.Execute(M.AppendToDeviceLog(m, message).trace[|m.trace|].action)
  {
    Handled(A.AppendToDeviceLog, "appendToDeviceLog");
  }

  lemma SetupRequestsHandled()
    ensures A.Execute(M.NewManager().trace[1].action)
    ensures forall m, d: JsValue :: d.JDelegate? ==> A.Execute(M.SetDelegate(m, d).0.trace[|m.trace|].action)
  {
    Handled(A.RegisterDelegateCallbackId, "registerDelegateCallbackId");
    Handled(A.OnDomDelegateReady, "onDomDelegateReady");
  }

  /** The name of an Android action is one `execute` accepts. */
  lemma Handled(a: A.Action, name: string)
    requires A.ActionName(a) == name
    ensures A.Execute(name)
  {
  }

  // ---- regions from Android to JavaScript ----

  /** An optional identifier text as the property JavaScript reads: absent
      keys read as `undefined`. */
  function TextOrUndefined(text: Option<string>): (v: JsValue)
    ensures v.JUndef? <==> text.None?
  {
    match text
    case None => JUndef
    case Some(s) => JStr(s)
  }

  /** An optional major or minor text the beacon constructor accepts. */
  predicate ValidOptionalNumber(text: Option<string>) {
    ValidMajorOrMinor(TextOrUndefined(text))
  }

  /** The native regions whose serialised form JavaScript decodes: a
      non-empty id, a uuid in the canonical form, and major and minor texts
      that are absent or decimal numbers in [0, 65535]. */
  predicate DecodableNative(region: A.NativeRegion) {
    region.uniqueId.Some? && |region.uniqueId.value| > 0
    && region.id1.Some? && UuidShape(region.id1.value)
    && ValidOptionalNumber(region.id2) && ValidOptionalNumber(region.id3)
  }

  /** `Regions.fromJson` on what `mapOfBeaconRegion` writes: decoded exactly
      when the region is decodable, and then to a beacon region with the
      same texts; majors and minors stay strings. */
  lemma NativeRegionDecodes(region: A.NativeRegion)
    ensures FromJson(JObj(A.MapOfBeaconRegion(region))).Success? <==> DecodableNative(region)
    ensures DecodableNative(region) ==>
              FromJson(JObj(A.MapOfBeaconRegion(region)))
              == Success(Some(Beacon(region.uniqueId.value, region.id1.value, TextOrUndefined(region.id2),
                                     TextOrUndefined(region.id3), JUndef)))
  {
    NativeRegionProperties(region);
  }

  /** The properties `Regions.fromJson` reads from what `mapOfBeaconRegion`
      writes: a text for every non-null identifier, `undefined` otherwise. */
  lemma NativeRegionProperties(region: A.NativeRegion)
    ensures var json := JObj(A.MapOfBeaconRegion(region));
            Prop(json, "typeName") == JStr("BeaconRegion")
            && Prop(json, "identifier") == TextOrUndefined(region.uniqueId)
            && Prop(json, "uuid") == TextOrUndefined(region.id1)
            && Prop(json, "major") == TextOrUndefined(region.id2)
            && Prop(json, "minor") == TextOrUndefined(region.id3)
  {
    var fields := A.MapOfBeaconRegion(region);
    assert "typeName" in fields;
  }

  /** The decimal text of a natural number is an acceptable major or minor
      exactly when the number fits in 16 bits, and it reads back as that
      number. */
  lemma DecimalIdentifier(n: nat)
    ensures ValidOptionalNumber(Some(NatToDecimal(n))) <==> n <= 65535
    ensures FiniteNumber(JStr(NatToDecimal(n))) == Some(n as real)
  {
    var s := NatToDecimal(n);
    DecimalValueOfNat(n);
    assert FiniteNumber(JStr(s)) == Some(n as real);
    TextReadingAsNat(s, n);
  }

  /** A text that reads as a natural number is an acceptable major or minor
      exactly when the number fits in 16 bits. */
  lemma TextReadingAsNat(s: string, n: nat)
    requires FiniteNumber(JStr(s)) == Some(n as real)
    ensures ValidOptionalNumber(Some(s)) <==> n <= 65535
  {
    assert TextOrUndefined(Some(s)) == JStr(s);
  }

  /** A beacon Android reports with numeric major and minor, as AltBeacon
      identifiers print them, decodes on the JavaScript side, and its major
      and minor convert back to the numbers. */
  lemma NumericBeaconDecodes(id: string, uuid: string, major: nat, minor: nat)
    requires |id| > 0 && UuidShape(uuid) && major <= 65535 && minor <= 65535
    ensures var decoded := FromJson(JObj(A.MapOfBeaconRegion(
                             A.NativeRegion(Some(id), Some(uuid), Some(NatToDecimal(major)), Some(NatToDecimal(minor))))));
            decoded.Success? && decoded.value.Some?
            && FiniteNumber(decoded.value.value.major) == Some(major as real)
            && FiniteNumber(decoded.value.value.minor) == Some(minor as real)
  {
    var region := A.NativeRegion(Some(id), Some(uuid), Some(NatToDecimal(major)), Some(NatToDecimal(minor)));
    DecimalIdentifier(major);
    DecimalIdentifier(minor);
    NativeRegionDecodes(region);
  }

  // ---- regions from JavaScript to Android ----

  /** Whether `JSON.stringify` leaves a property out: `undefined` and
      function values are skipped. */
  predicate DroppedOnWire(v: JsValue) { v.JUndef? || v.JFunc? }

  /** A kept property value after `JSON.stringify` and parsing: NaN and the
      infinities are written as `null`, everything else is kept. */
  function WireValue(v: JsValue): (w: JsValue)
    ensures w.JNull? <==> v.JNull? || v.JNaN? || v.JInf?
    ensures !w.JNull? ==> w == v
  {
    if v.JNaN? || v.JInf? then JNull else v
  }

  /** Whether a property arrives on the Android side present and not null. */
  predicate NonNullOnWire(v: JsValue) { !DroppedOnWire(v) && !WireValue(v).JNull? }

  /** The own properties of an object after `JSON.stringify` and parsing. */
  function JsonFields(fields: map<string, JsValue>): (r: map<string, JsValue>)
    ensures forall key :: key in r <==> key in fields && !DroppedOnWire(fields[key])
    ensures forall key :: key in r ==> r[key] == WireValue(fields[key])
  {
    map key | key in fields && !DroppedOnWire(fields[key]) :: WireValue(fields[key])
  }

  /** A region instance as the Android plugin receives it. */
  function Wire(r: Region): JsValue {
    JObj(JsonFields(FieldsOf(r).fields))
  }

  /** `isMonitoringAvailableForClass` on the Android side, for a region
      JavaScript built: a beacon region is available unless it has a minor
      but no major, a combination the JavaScript constructor accepts and the
      Android parser refuses; a circular region never is. AltBeacon's
      `Identifier.parse` is not modelled, so this holds for identifier texts
      it accepts. */
  lemma AndroidAvailability(r: Region)
    requires r.Circular? || r.Beacon?
    ensures r.Circular? ==> A.IsMonitoringAvailable(Wire(r)).message == JBool(false)
    ensures r.Beacon? ==>
              A.IsMonitoringAvailable(Wire(r)).message == JBool(NonNullOnWire(r.major) || !NonNullOnWire(r.minor))
  {
    if r.Circular? {
      CircularWireUnavailable(r);
    } else {
      BeaconWireAvailability(r);
    }
  }

  lemma CircularWireUnavailable(r: Region)
    requires r.Circular?
    ensures A.IsMonitoringAvailable(Wire(r)).message == JBool(false)
  {
    var fields := Wire(r).fields;
    assert "typeName" in fields && fields["typeName"] == JStr("CircularRegion");
    A.CircularNeverAvailable(Wire(r));
  }

  lemma BeaconWireAvailability(r: Region)
    requires r.Beacon?
    ensures A.IsMonitoringAvailable(Wire(r)).message == JBool(NonNullOnWire(r.major) || !NonNullOnWire(r.minor))
  {
    BeaconWireFields(r);
  }

  /** The keys of a beacon region the Android parser looks at, after the
      transport. */
  lemma BeaconWireFields(r: Region)
    requires r.Beacon?
    ensures var fields := Wire(r).fields;
            A.Has(fields, "typeName") && A.Has(fields, "identifier")
            && fields["typeName"] == JStr("BeaconRegion")
            && (A.HasNonNull(fields, "major") <==> NonNullOnWire(r.major))
            && (A.HasNonNull(fields, "minor") <==> NonNullOnWire(r.minor))
  {
    var m := FieldsOf(r).fields;
    assert m == map["identifier" := JStr(r.identifier), "uuid" := JStr(r.uuid), "major" := r.major, "minor" := r.minor,
                    "notifyEntryStateOnDisplay" := r.notifyEntryStateOnDisplay, "typeName" := JStr("BeaconRegion")];
    WireKeeps(m, "typeName");
    WireKeeps(m, "identifier");
    WireKeeps(m, "major");
    WireKeeps(m, "minor");
  }

  /** One key through the transport: kept unless dropped, and non-null on
      arrival exactly when `NonNullOnWire` says so. */
  lemma WireKeeps(fields: map<string, JsValue>, key: string)
    requires key in fields
    ensures key in JsonFields(fields) <==> !DroppedOnWire(fields[key])
    ensures key in JsonFields(fields) ==> JsonFields(fields)[key] == WireValue(fields[key])
    ensures A.HasNonNull(JsonFields(fields), key) <==> NonNullOnWire(fields[key])
  { }

  /** A valid beacon region with a minor and no major: JavaScript builds it,
      Android will not monitor it. */
  lemma MinorWithoutMajorRefused()
    ensures var built := NewBeacon(JStr("b1"), JStr("b9407f30-f5f8-466e-aff9-25556b57fe6d"), JUndef,
                                   JNum(61546.0), JUndef);
            built.Success? && A.IsMonitoringAvailable(Wire(built.value)).message == JBool(false)
  {
    var built := NewBeacon(JStr("b1"), JStr("b9407f30-f5f8-466e-aff9-25556b57fe6d"), JNum(35387.0),
                           JNum(61546.0), JUndef);
    EstimoteScenario();
    var r := built.value.(major := JUndef);
    assert NewBeacon(JStr("b1"), JStr("b9407f30-f5f8-466e-aff9-25556b57fe6d"), JUndef, JNum(61546.0), JUndef)
           == Success(r);
    AndroidAvailability(r);
  }

  // ---- events from Android to the delegate ----

  /** The payload of a monitoring event Android raises for a decodable
      region is pre-processed into one carrying the decoded region instance. */
  lemma MonitorEventPreProcesses(eventType: string, state: int, region: A.NativeRegion)
    requires eventType in DelegateEventNames && IsRegionEvent(eventType) && DecodableNative(region)
    ensures var payload := JObj(A.MonitorPayload(eventType, state, region));
            var processed := PreProcess(eventType, payload);
            processed.Success?
            && Prop(processed.value, "region")
               == JRegion(Beacon(region.uniqueId.value, region.id1.value, TextOrUndefined(region.id2),
                                 TextOrUndefined(region.id3), JUndef))
            && Prop(processed.value, "eventType") == JStr(eventType)
  {
    var payload := JObj(A.MonitorPayload(eventType, state, region));
    assert Prop(payload, "region") == JObj(A.MapOfBeaconRegion(region));
    NativeRegionDecodes(region);
  }

  /** Android raises `rangingBeaconsDidFailForRegion`, which is not one of
      the delegate's events: unless the application added a function of
      that name, the facade complains that it is unhandled. */
  lemma RangingFailureUnhandled(delegate: DelegateObject, region: A.NativeRegion, message: Option<string>)
    requires "rangingBeaconsDidFailForRegion" !in delegate.own
    ensures var payload := JObj(A.FailPayload("rangingBeaconsDidFailForRegion", region, message));
            M.Tagged(payload)
            && M.RouteEffects(delegate, payload)[1..]
               == [ConsoleError(UnhandledEvent("rangingBeaconsDidFailForRegion"))]
  {
    var payload := JObj(A.FailPayload("rangingBeaconsDidFailForRegion", region, message));
    assert Prop(payload, "eventType") == JStr("rangingBeaconsDidFailForRegion");
    RangingFailureIsNoDelegateEvent();
    UnhandledEventRoute(delegate, payload);
  }

  /** An event the delegate neither defines nor has a default for is
      reported as unhandled. */
  lemma UnhandledEventRoute(delegate: DelegateObject, payload: JsValue)
    requires M.Tagged(payload)
    requires Prop(payload, "eventType").s !in delegate.own && Prop(payload, "eventType").s !in DelegateEventNames
    ensures M.RouteEffects(delegate, payload)[1..] == [ConsoleError(UnhandledEvent(Prop(payload, "eventType").s))]
  {
    assert Prop(JDelegate(delegate), Prop(payload, "eventType").s) == JUndef;
  }

  lemma RangingFailureIsNoDelegateEvent()
    ensures "rangingBeaconsDidFailForRegion" !in DelegateEventNames
  {
    var eventType := "rangingBeaconsDidFailForRegion";
    assert forall i :: 0 <= i < |DelegateEventNames| ==> |DelegateEventNames[i]| != |eventType|;
  }

  // ---- the device log ----

  /** `appendToDeviceLog` from JavaScript to Android: the message is echoed
      back with OK exactly when it is not the empty string; a string comes
      back as itself, and a missing message, NaN or a function arrives as
      JSON null and is logged as the text "null". */
  lemma DeviceLogRoundTrip(m: M.Manager, message: JsValue, jsonText: string)
    requires |jsonText| > 0
    ensures var request := M.AppendToDeviceLog(m, message).trace[|m.trace|];
            var result := A.AppendToDeviceLogResult(A.OptStringFirst(request.args, jsonText));
            (result.status == A.OK <==> message != JStr(""))
            && (message.JStr? && result.status == A.OK ==> result.message == message)
            && (A.NullInArgs(message) ==> result == A.PluginResult(A.OK, JStr("null")))
  {
    var request := M.AppendToDeviceLog(m, message).trace[|m.trace|];
    assert request == LogRequest(message);
    assert request.args == [message];
  }
}

=== FILE: js_errors.dfy ===
/** The exceptions the JavaScript side of the plugin throws, one variant per
    throw site. Each carries the offending value where the source's message
    embeds it, and `Kind` tells a `TypeError` from a plain `Error`. */
module JsErrors {
  import opened JsValues

  datatype ErrorKind = TypeError | PlainError

  datatype Coordinate = Latitude | Longitude | Radius

  datatype Exception =
    // Region.checkIdentifier
    | IdentifierNotString(value: JsValue)
    | IdentifierEmpty
    // CircularRegion.checkLatitude / checkLongitude / checkRadius
    | CoordinateNaN(coordinate: Coordinate)
    | CoordinateNotNumber(coordinate: Coordinate, value: JsValue)
    | CoordinateOutOfRange(coordinate: Coordinate, value: JsValue)
    // BeaconRegion.checkUuid (a non-string has no `match` method) / checkMajorOrMinor
    | UuidNotMatchable(value: JsValue)
    | UuidInvalid(uuid: string)
    | NotFinite(value: JsValue)
    | OutOfUint16Range(value: JsValue)
    // Regions and the manager's guards
    | PropertyOfNullish(key: string)
    | TypeNameMissing
    | ExpectedArray
    | NotARegion
    | NotABeaconRegion
    // the legacy ibeacon.js API
    | LegacyUuidBlank
    | LegacyMajorNotInteger
    | LegacyMinorNotInteger
    | LegacyIdentifierBlank
    | NotACLBeaconRegion
    | NotAnArrayOfBeacons
    | InvalidOperation(action: JsValue)
  {
    /** Only an empty identifier, a coordinate out of range and an unknown
        legacy action are plain `Error`s; everything else is a `TypeError`. */
    function Kind(): ErrorKind {
      if IdentifierEmpty? || CoordinateOutOfRange? || InvalidOperation? then PlainError
      else TypeError
    }
  }
}

=== FILE: js_values.dfy ===
/** The JavaScript values the plugin's code observes.

    Besides the JSON-shaped values the native layer sends, a value can be an
    instance of one of the plugin's own prototypes (`Region` and its two
    subclasses, `Delegate`, the legacy `CLBeaconRegion`) or a function. The
    source tests those with `instanceof`; here the variant tag answers it.
    Numbers are split into finite numbers (exact reals: the source only
    compares them), NaN and the two infinities. */
module JsValues {
  import opened Decimal
  import opened Wrappers

  /** The functions whose identity matters to the model. */
  datatype FuncId =
    | DefaultHandler(event: string)      // Delegate.prototype.<event>, the no-op default
    | RegionsFromJsonArray               // Regions.fromJsonArray, used as a reply pre-processor
    | UserFunction(id: nat, arity: nat)  // application code; only its identity and arity are modelled

  datatype JsValue =
    | JUndef
    | JNull
    | JBool(b: bool)
    | JNum(n: real)
    | JNaN
    | JInf(positive: bool)
    | JStr(s: string)
    | JArr(items: seq<JsValue>)
    | JObj(fields: map<string, JsValue>)
    | JFunc(f: FuncId)
    | JRegion(region: Region)
    | JDelegate(delegate: DelegateObject)
    | JCLBeacon(clb: CLBeaconRegion)

  /** An instance of `Region` (Base), `CircularRegion` or `BeaconRegion`.
      The fields hold the values the constructor was given; which values a
      constructor accepts is the business of the region modules. */
  datatype Region =
    | Base(identifier: string)
    | Circular(identifier: string, latitude: JsValue, longitude: JsValue, radius: JsValue)
    | Beacon(identifier: string, uuid: string, major: JsValue, minor: JsValue,
             notifyEntryStateOnDisplay: JsValue)

  /** An instance of `Delegate`: its own properties; every other name is
      looked up on `Delegate.prototype`. */
  datatype DelegateObject = DelegateObject(own: map<string, JsValue>)

  /** An instance of the legacy `CLBeaconRegion`. Its fields are plain
      properties that application code may overwrite after construction,
      which is why the legacy API validates them again before every call. */
  datatype CLBeaconRegion = CLBeaconRegion(uuid: JsValue, major: JsValue, minor: JsValue,
                                           identifier: JsValue, notifyEntryStateOnDisplay: JsValue)

  /** The nine delegate events, each with a default handler on `Delegate.prototype`. */
  const DelegateEventNames: seq<string> := [
    "didDetermineStateForRegion", "monitoringDidFailForRegionWithError",
    "didStartMonitoringForRegion", "didExitRegion", "didEnterRegion",
    "didRangeBeaconsInRegion", "peripheralManagerDidStartAdvertising",
    "peripheralManagerDidUpdateState", "didChangeAuthorizationStatus"]

  // ---- the underscore.js predicates the plugin uses ----

  predicate IsString(v: JsValue) { v.JStr? }

  /** `_.isNumber`: every number, NaN and the infinities included. */
  predicate IsNumber(v: JsValue) { v.JNum? || v.JNaN? || v.JInf? }

  predicate IsNaN(v: JsValue) { v.JNaN? }

  predicate IsArray(v: JsValue) { v.JArr? }

  predicate IsFunction(v: JsValue) { v.JFunc? }

  predicate IsUndefined(v: JsValue) { v.JUndef? }

  /** The finite number `_.isFinite(v)` accepts `v` as, which is
      `isFinite(v) && !isNaN(parseFloat(v))`: both coerce their argument, so a
      decimal string such as "12345" is accepted with its numeric value, and so
      is a one-element array, which converts through its only element's text.
      Strings in exponent or hexadecimal notation are outside this model and
      count as not finite. */
  function FiniteNumber(v: JsValue): (r: Option<real>)
    ensures v.JNum? ==> r == Some(v.n)
    ensures v.JUndef? || v.JNull? || v.JBool? || v.JNaN? || v.JInf? ==> r.None?
  {
    match v
    case JNum(n) => Some(n)
    case JStr(s) => DecimalValue(s)
    case JArr(items) => if |items| == 1 then FiniteNumber(items[0]) else None
    case _ => None
  }

  predicate IsNullish(v: JsValue) { v.JUndef? || v.JNull? }

  /** JavaScript truthiness. */
  predicate Truthy(v: JsValue) {
    match v
    case JUndef => false
    case JNull => false
    case JBool(b) => b
    case JNum(n) => n != 0.0
    case JNaN => false
    case JStr(s) => |s| > 0
    case _ => true
  }

  function Arity(f: FuncId): nat {
    match f
    case DefaultHandler(_) => 0
    case RegionsFromJsonArray => 1
    case UserFunction(_, arity) => arity
  }

  /** The `typeName` property each constructor sets; the base `Region` sets none. */
  function RegionTypeName(r: Region): JsValue {
    match r
    case Base(_) => JUndef
    case Circular(_, _, _, _) => JStr("CircularRegion")
    case Beacon(_, _, _, _, _) => JStr("BeaconRegion")
  }

  function RegionProp(r: Region, key: string): JsValue {
    if key == "identifier" then JStr(r.identifier)
    else if key == "typeName" then RegionTypeName(r)
    else match r
      case Base(_) => JUndef
      case Circular(_, lat, lon, rad) =>
        if key == "latitude" then lat else if key == "longitude" then lon
        else if key == "radius" then rad else JUndef
      case Beacon(_, uuid, major, minor, notify) =>
        if key == "uuid" then JStr(uuid) else if key == "major" then major
        else if key == "minor" then minor
        else if key == "notifyEntryStateOnDisplay" then notify else JUndef
  }

  /** `v[key]` for a non-index key. Reading a property of `null` or
      `undefined` throws, which is why the caller must rule those out.
      Inherited `Object.prototype` members are not modelled. */
  function Prop(v: JsValue, key: string): JsValue
    requires !IsNullish(v)
  {
    match v
    case JObj(m) => if key in m then m[key] else JUndef
    case JDelegate(d) =>
      if key in d.own then d.own[key]
      else if key in DelegateEventNames then JFunc(DefaultHandler(key))
      else JUndef
    case JRegion(r) => RegionProp(r, key)
    case JCLBeacon(c) =>
      if key == "uuid" then c.uuid else if key == "major" then c.major
      else if key == "minor" then c.minor else if key == "identifier" then c.identifier
      else if key == "notifyEntryStateOnDisplay" then c.notifyEntryStateOnDisplay
      else JUndef
    case JArr(items) => if key == "length" then JNum(|items| as real) else JUndef
    case JStr(s) => if key == "length" then JNum(|s| as real) else JUndef
    case JFunc(f) => if key == "length" then JNum(Arity(f) as real) else JUndef
    case _ => JUndef
  }

  /** `v[i]` for an array index: an element of an array, a one-character
      string of a string, or the property named by the index's decimal text. */
  function ElementAt(v: JsValue, i: nat): JsValue
    requires !IsNullish(v)
  {
    match v
    case JArr(items) => if i < |items| then items[i] else JUndef
    case JStr(s) => if i < |s| then JStr([s[i]]) else JUndef
    case JObj(m) => Prop(v, NatToDecimal(i))
    case JDelegate(_) => Prop(v, NatToDecimal(i))
    case _ => JUndef
  }

  /** `v[key] = x` on an object that can hold arbitrary own properties. */
  function SetProp(v: JsValue, key: string, x: JsValue): (r: JsValue)
    requires v.JObj? || v.JDelegate?
    ensures !IsNullish(r) && Prop(r, key) == x
    ensures forall k :: k != key ==> Prop(r, k) == Prop(v, k)
  {
    match v
    case JObj(m) => JObj(m[key := x])
    case JDelegate(d) => JDelegate(DelegateObject(d.own[key := x]))
  }
}

=== FILE: location_manager.dfy ===
/** `LocationManager`, the JavaScript facade: a state of three parts (the
    delegate, whether the callback registration has been acknowledged, and
    the trace of effects) and one pure transition per public operation.

    Every request goes through `_promisedExec`, which records a request and
    hands back a promise; `Settle` says what that promise becomes when the
    native reply arrives. */
module Manager {
  import opened Wrappers
  import opened JsValues
  import opened JsErrors
  import opened RegionCodec
  import opened Bridge
  import opened Delegates

  datatype Manager = Manager(delegate: DelegateObject, registrationResolved: bool, trace: seq<Effect>)

  /** `new LocationManager()`: a fresh `Delegate`, then
      `_registerDelegateCallbackId`, which logs and registers the channel on
      which the native layer sends events. */
  function NewManager(): (m: Manager)
    ensures !m.registrationResolved
    ensures m.delegate == NewDelegate()
    ensures forall name :: IsFunction(Prop(JDelegate(m.delegate), name)) <==> name in DelegateEventNames
    ensures Requests(m.trace) == m.trace && |m.trace| == 2
    ensures m.trace[0] == LogRequest(JStr("registerDelegateCallbackId()"))
    ensures m.trace[1] == Exec(Service, "registerDelegateCallbackId", [], DelegateChannel)
  {
    Manager(NewDelegate(),
            false,
            [LogRequest(JStr("registerDelegateCallbackId()")),
             Exec(Service, "registerDelegateCallbackId", [], DelegateChannel)])
  }

  function GetDelegate(m: Manager): JsValue { JDelegate(m.delegate) }

  /** `setDelegate(newDelegate)`: a value that is not a `Delegate` is
      reported on the console and nothing else happens (the method returns
      `undefined`); a `Delegate` replaces the stored one, `onDomDelegateReady`
      is requested, and the new delegate is returned. */
  function SetDelegate(m: Manager, newDelegate: JsValue): (r: (Manager, JsValue))
    ensures !newDelegate.JDelegate? ==>
              r.0 == m.(trace := m.trace + [ConsoleError(NotADelegate)]) && r.1 == JUndef
    ensures !newDelegate.JDelegate? ==> Requests(r.0.trace) == Requests(m.trace)
    ensures newDelegate.JDelegate? ==>
              r.0.delegate == newDelegate.delegate && r.0.registrationResolved == m.registrationResolved
              && r.0.trace == m.trace + [Request("onDomDelegateReady", [], [])]
              && GetDelegate(r.0) == newDelegate && r.1 == newDelegate
  {
    if !newDelegate.JDelegate? then
      RequestsAppend(m.trace, [ConsoleError(NotADelegate)]);
      (m.(trace := m.trace + [ConsoleError(NotADelegate)]), JUndef)
    else
      var m' := m.(delegate := newDelegate.delegate);
      (m'.(trace := m'.trace + [Request("onDomDelegateReady", [], [])]), JDelegate(m'.delegate))
  }

  /** The keep-only-functions filter `_promisedExec` applies to its
      pre-processors. Together with `FunctionsOfAppend`, the one-element
      clauses pin the result down: exactly the functions, in order. */
  function FunctionsOf(items: seq<JsValue>): (fs: seq<FuncId>)
    ensures |fs| <= |items|
    ensures forall f :: f in fs <==> JFunc(f) in items
    ensures |items| == 1 && items[0].JFunc? ==> fs == [items[0].f]
    ensures |items| == 1 && !items[0].JFunc? ==> fs == []
    ensures (forall i :: 0 <= i < |items| ==> items[i].JFunc?) ==>
              |fs| == |items| && forall i :: 0 <= i < |items| ==> JFunc(fs[i]) == items[i]
    ensures (forall i :: 0 <= i < |items| ==> !items[i].JFunc?) ==> fs == []
  {
    if items == [] then []
    else
      var rest := FunctionsOf(items[1..]);
      assert forall i :: 1 <= i < |items| ==> items[i] == items[1..][i - 1];
      if IsFunction(items[0]) then [items[0].f] + rest else rest
  }

  /** The filter works element by element: filtering a concatenation is
      concatenating the filtered parts. */
  lemma {:induction false} FunctionsOfAppend(a: seq<JsValue>, b: seq<JsValue>)
    ensures FunctionsOf(a + b) == FunctionsOf(a) + FunctionsOf(b)
  {
    if a == [] {
      assert a + b == b;
    } else {
      assert (a + b)[0] == a[0];
      assert (a + b)[1..] == a[1..] + b;
      FunctionsOfAppend(a[1..], b);
    }
  }

  /** `_promisedExec(method, commandArgs, preProcessors)`: the request it
      records. A non-array argument list becomes `[]`, non-array
      pre-processors become `[]`, and non-functions among them are dropped. */
  function PromisedExec(action: string, commandArgs: JsValue, preProcessors: JsValue): (e: Effect)
    ensures e.Exec? && e.service == Service && e.action == action && e.route.Promise?
    ensures e.args == if IsArray(commandArgs) then commandArgs.items else []
    ensures !IsArray(preProcessors) ==> e.route.preProcessors == []
    ensures IsArray(preProcessors) ==> e.route.preProcessors == FunctionsOf(preProcessors.items)
  {
    var args := if IsArray(commandArgs) then commandArgs.items else [];
    var ps := if IsArray(preProcessors) then FunctionsOf(preProcessors.items) else [];
    Request(action, args, ps)
  }

  /** Calling a function as a pre-processor. `Regions.fromJsonArray` decodes
      an array of regions; the default delegate handlers return `undefined`;
      what an application function returns is the parameter `user`. */
  function Call(f: FuncId, argument: JsValue, user: (nat, JsValue) -> JsValue): Result<JsValue, Exception> {
    match f
    case RegionsFromJsonArray => FromJsonArrayValue(argument)
    case DefaultHandler(_) => Success(JUndef)
    case UserFunction(id, _) => Success(user(id, argument))
  }

  /** `_preProcessorExecutor`: each pre-processor in order is applied to what
      the previous one returned; an exception stops the walk. */
  function PreProcessorExecutor(payload: JsValue, preProcessors: seq<FuncId>, user: (nat, JsValue) -> JsValue)
    : (r: Result<JsValue, Exception>)
    decreases |preProcessors|
    ensures preProcessors == [] ==> r == Success(payload)
    ensures |preProcessors| == 1 ==> r == Call(preProcessors[0], payload, user)
  {
    if preProcessors == [] then Success(payload)
    else
      var next :- Call(preProcessors[0], payload, user);
      PreProcessorExecutor(next, preProcessors[1..], user)
  }

  /** The executor is a left fold: running two lists one after the other is
      running their concatenation. */
  lemma {:induction false} PreProcessorExecutorAppend(payload: JsValue, a: seq<FuncId>, b: seq<FuncId>,
                                                       user: (nat, JsValue) -> JsValue)
    ensures PreProcessorExecutor(payload, a + b, user) ==
            match PreProcessorExecutor(payload, a, user)
            case Success(v) => PreProcessorExecutor(v, b, user)
            case Failure(e) => Failure(e)
    decreases |a|
  {
    if a != [] {
      assert (a + b)[0] == a[0];
      assert (a + b)[1..] == a[1..] + b;
      match Call(a[0], payload, user)
      case Success(next) => PreProcessorExecutorAppend(next, a[1..], b, user);
      case Failure(_) =>
    } else {
      assert a + b == b;
    }
  }

  datatype Reply = ReplyOk(payload: JsValue) | ReplyError(payload: JsValue)

  datatype PromiseState = Pending | Resolved(value: JsValue) | Rejected(reason: JsValue)

  /** What the promise of a `_promisedExec` request becomes on the native
      reply: an error reply rejects it as is; a success reply goes through
      the pre-processors and resolves with their result. If a pre-processor
      throws, the exception leaves the success callback before `resolve` is
      reached and the promise stays pending. */
  function Settle(request: Effect, reply: Reply, user: (nat, JsValue) -> JsValue): (p: PromiseState)
    requires request.Exec? && request.route.Promise?
    ensures reply.ReplyError? ==> p == Rejected(reply.payload)
    ensures reply.ReplyOk? && request.route.preProcessors == [] ==> p == Resolved(reply.payload)
    ensures reply.ReplyOk? && PreProcessorExecutor(reply.payload, request.route.preProcessors, user).Success? ==>
              p == Resolved(PreProcessorExecutor(reply.payload, request.route.preProcessors, user).value)
    ensures reply.ReplyOk? ==>
              (p.Pending? <==> PreProcessorExecutor(reply.payload, request.route.preProcessors, user).Failure?)
  {
    match reply
    case ReplyError(reason) => Rejected(reason)
    case ReplyOk(payload) =>
      match PreProcessorExecutor(payload, request.route.preProcessors, user)
      case Success(v) => Resolved(v)
      case Failure(_) => Pending
  }

  // ---- delegate callbacks ----

  /** A payload carrying a delegate event: truthy, with a string `eventType`. */
  predicate Tagged(payload: JsValue) {
    Truthy(payload) && !IsNullish(payload) && IsString(Prop(payload, "eventType"))
  }

  /** The effects of `_mapDelegateCallback`: log the event type, then call
      the delegate's function under that name with the raw payload, or
      complain when there is none. The static pre-processors of `Delegate`
      are not applied. */
  function RouteEffects(delegate: DelegateObject, payload: JsValue): (effects: seq<Effect>)
    requires Tagged(payload)
    ensures var eventType := Prop(payload, "eventType").s;
            var handler := Prop(JDelegate(delegate), eventType);
            |effects| > 1
            && effects[0] == LogRequest(JStr("_mapDelegateCallback() found eventType " + eventType))
            && (IsFunction(handler) ==>
                  effects[1] == Invoke(handler.f, payload) && effects[2..] == HandlerEffects(handler.f)
                  && Invocations(effects[2..]) == [])
            && (!IsFunction(handler) ==> effects[1..] == [ConsoleError(UnhandledEvent(eventType))])
    ensures forall i :: 0 <= i < |effects| ==> effects[i] != ConsoleError(LateUntaggedCallback)
  {
    var eventType := Prop(payload, "eventType").s;
    var handler := Prop(JDelegate(delegate), eventType);
    var logged := [LogRequest(JStr("_mapDelegateCallback() found eventType " + eventType))];
    if IsFunction(handler) then
      var effects := HandlerEffects(handler.f);
      assert Invocations(effects) == [] by {
        if effects != [] { assert effects[1..] == []; }
      }
      assert (logged + [Invoke(handler.f, payload)] + effects)[2..] == effects;
      logged + [Invoke(handler.f, payload)] + effects
    else
      logged + [ConsoleError(UnhandledEvent(eventType))]
  }

  /** `_mapDelegateCallback`: routing leaves the delegate and the
      registration flag alone and only adds to the trace. */
  function MapDelegateCallback(m: Manager, payload: JsValue): (r: Manager)
    requires Tagged(payload)
    ensures r.delegate == m.delegate && r.registrationResolved == m.registrationResolved
    ensures r.trace == m.trace + RouteEffects(m.delegate, payload)
  {
    m.(trace := m.trace + RouteEffects(m.delegate, payload))
  }

  /** The calls of handlers in a trace. */
  function Invocations(trace: seq<Effect>): (r: seq<Effect>)
    ensures |r| <= |trace|
    ensures forall i :: 0 <= i < |r| ==> r[i].Invoke? && r[i] in trace
  {
    if trace == [] then []
    else (if trace[0].Invoke? then [trace[0]] else []) + Invocations(trace[1..])
  }

  /** `_onDelegateCallback(deferred, pluginResult)`: every callback on the
      delegate channel is logged; a tagged payload is routed whether or not
      the registration has been acknowledged; the first untagged one
      acknowledges it; any later untagged one is a complaint. */
  function OnDelegateCallback(m: Manager, payload: JsValue): (r: Manager)
    ensures r.delegate == m.delegate
    ensures |r.trace| > |m.trace| && r.trace[..|m.trace| + 1] == m.trace + [DumpCallback(payload)]
    ensures Tagged(payload) ==> r.registrationResolved == m.registrationResolved
    ensures Tagged(payload) ==> r.trace == m.trace + [DumpCallback(payload)] + RouteEffects(m.delegate, payload)
    ensures !Tagged(payload) ==> r.registrationResolved
    ensures !Tagged(payload) && !m.registrationResolved ==> r.trace == m.trace + [DumpCallback(payload)]
    ensures !Tagged(payload) && m.registrationResolved ==>
              r.trace == m.trace + [DumpCallback(payload), ConsoleError(LateUntaggedCallback)]
  {
    var logged := m.(trace := m.trace + [DumpCallback(payload)]);
    if Tagged(payload) then
      var r := MapDelegateCallback(logged, payload);
      assert r.trace[..|m.trace| + 1] == r.trace[..|logged.trace| + 1][..|m.trace| + 1];
      r
    else if !m.registrationResolved then logged.(registrationResolved := true)
    else logged.(trace := logged.trace + [ConsoleError(LateUntaggedCallback)])
  }

  /** Delivering a sequence of callbacks in order. */
  function Deliver(m: Manager, payloads: seq<JsValue>): Manager
    decreases |payloads|
  {
    if payloads == [] then m
    else Deliver(OnDelegateCallback(m, payloads[0]), payloads[1..])
  }

  function CountUntagged(payloads: seq<JsValue>): nat {
    if payloads == [] then 0
    else (if Tagged(payloads[0]) then 0 else 1) + CountUntagged(payloads[1..])
  }

  function CountLate(trace: seq<Effect>): nat {
    if trace == [] then 0
    else (if trace[0] == ConsoleError(LateUntaggedCallback) then 1 else 0) + CountLate(trace[1..])
  }

  lemma {:induction false} CountLateAppend(a: seq<Effect>, b: seq<Effect>)
    ensures CountLate(a + b) == CountLate(a) + CountLate(b)
  {
    if a == [] {
      assert a + b == b;
    } else {
      assert (a + b)[1..] == a[1..] + b;
      CountLateAppend(a[1..], b);
    }
  }

  lemma {:induction false} CountLateNone(trace: seq<Effect>)
    requires forall i :: 0 <= i < |trace| ==> trace[i] != ConsoleError(LateUntaggedCallback)
    ensures CountLate(trace) == 0
  {
    if trace != [] {
      assert trace[0] != ConsoleError(LateUntaggedCallback);
      CountLateNone(trace[1..]);
    }
  }

  /** The registration handshake happens once: after any sequence of
      callbacks the registration is acknowledged exactly when it was before
      or some callback was untagged, and every untagged callback but the one
      that acknowledged it left a complaint. */
  lemma {:induction false} Handshake(m: Manager, payloads: seq<JsValue>)
    ensures Deliver(m, payloads).registrationResolved <==> m.registrationResolved || CountUntagged(payloads) > 0
    ensures Deliver(m, payloads).delegate == m.delegate
    ensures CountLate(Deliver(m, payloads).trace) == CountLate(m.trace) + CountUntagged(payloads)
              - (if !m.registrationResolved && CountUntagged(payloads) > 0 then 1 else 0)
    decreases |payloads|
  {
    if payloads != [] {
      var p := payloads[0];
      var m1 := OnDelegateCallback(m, p);
      Handshake(m1, payloads[1..]);
      var logged := m.trace + [DumpCallback(p)];
      CountLateAppend(m.trace, [DumpCallback(p)]);
      if Tagged(p) {
        CountLateAppend(logged, RouteEffects(m.delegate, p));
        CountLateNone(RouteEffects(m.delegate, p));
      } else if m.registrationResolved {
        CountLateAppend(logged, [ConsoleError(LateUntaggedCallback)]);
      }
    }
  }

  /** From a fresh manager, n untagged callbacks leave n - 1 complaints. */
  lemma FreshHandshake(payloads: seq<JsValue>)
    requires CountUntagged(payloads) > 0
    ensures Deliver(NewManager(), payloads).registrationResolved
    ensures CountLate(Deliver(NewManager(), payloads).trace) == CountUntagged(payloads) - 1
  {
    var m := NewManager();
    CountLateNone(m.trace);
    Handshake(m, payloads);
  }

  // ---- requests ----

  /** The operations that take no argument and send `[]`. */
  datatype PlainOperation =
    | OnDomDelegateReady | IsBluetoothEnabled | EnableBluetooth | DisableBluetooth
    | GetAuthorizationStatus | RequestWhenInUseAuthorization | RequestAlwaysAuthorization
    | IsRangingAvailable | StopAdvertising | IsAdvertisingAvailable | IsAdvertising
    | DisableDebugLogs | EnableDebugNotifications | DisableDebugNotifications | EnableDebugLogs

  function PlainOperationName(op: PlainOperation): string {
    match op
    case OnDomDelegateReady => "onDomDelegateReady"
    case IsBluetoothEnabled => "isBluetoothEnabled"
    case EnableBluetooth => "enableBluetooth"
    case DisableBluetooth => "disableBluetooth"
    case GetAuthorizationStatus => "getAuthorizationStatus"
    case RequestWhenInUseAuthorization => "requestWhenInUseAuthorization"
    case RequestAlwaysAuthorization => "requestAlwaysAuthorization"
    case IsRangingAvailable => "isRangingAvailable"
    case StopAdvertising => "stopAdvertising"
    case IsAdvertisingAvailable => "isAdvertisingAvailable"
    case IsAdvertising => "isAdvertising"
    case DisableDebugLogs => "disableDebugLogs"
    case EnableDebugNotifications => "enableDebugNotifications"
    case DisableDebugNotifications => "disableDebugNotifications"
    case EnableDebugLogs => "enableDebugLogs"
  }

  /** Appending one request and nothing else. */
  predicate AppendsOnly(m: Manager, r: Manager, request: Effect) {
    r == m.(trace := m.trace + [request])
  }

  function PlainRequest(m: Manager, op: PlainOperation): (r: Manager)
    ensures AppendsOnly(m, r, Request(PlainOperationName(op), [], []))
  {
    m.(trace := m.trace + [PromisedExec(PlainOperationName(op), JArr([]), JArr([]))])
  }

  /** `appendToDeviceLog(message)`: the message is sent as given, string or not. */
  function AppendToDeviceLog(m: Manager, message: JsValue): (r: Manager)
    ensures AppendsOnly(m, r, LogRequest(message))
  {
    m.(trace := m.trace + [PromisedExec("appendToDeviceLog", JArr([message]), JArr([]))])
  }

  /** The operations guarded by `Regions.checkRegionType`. */
  datatype RegionOperation =
    StartMonitoringForRegion | StopMonitoringForRegion | RequestStateForRegion | IsMonitoringAvailableForClass

  function RegionOperationName(op: RegionOperation): string {
    match op
    case StartMonitoringForRegion => "startMonitoringForRegion"
    case StopMonitoringForRegion => "stopMonitoringForRegion"
    case RequestStateForRegion => "requestStateForRegion"
    case IsMonitoringAvailableForClass => "isMonitoringAvailableForClass"
  }

  /** A region operation: a value that is not a region instance throws a
      `TypeError` before anything is recorded; a region is sent as the only
      argument. */
  function RegionRequest(m: Manager, op: RegionOperation, region: JsValue): (r: Result<Manager, Exception>)
    ensures r.Success? <==> IsRegion(region)
    ensures r.Failure? ==> r.error == NotARegion && r.error.Kind() == TypeError
    ensures r.Success? ==> AppendsOnly(m, r.value, Request(RegionOperationName(op), [region], []))
  {
    var _ :- CheckRegionType(region);
    Success(m.(trace := m.trace + [PromisedExec(RegionOperationName(op), JArr([region]), JArr([]))]))
  }

  datatype RangingOperation = StartRangingBeaconsInRegion | StopRangingBeaconsInRegion

  function RangingOperationName(op: RangingOperation): string {
    match op
    case StartRangingBeaconsInRegion => "startRangingBeaconsInRegion"
    case StopRangingBeaconsInRegion => "stopRangingBeaconsInRegion"
  }

  /** The two ranging operations accept only beacon regions; a circular
      region is refused like any other value, with a `TypeError`. */
  function RangingRequest(m: Manager, op: RangingOperation, region: JsValue): (r: Result<Manager, Exception>)
    ensures r.Success? <==> IsBeaconRegion(region)
    ensures r.Failure? ==> r.error == NotABeaconRegion && r.error.Kind() == TypeError
    ensures r.Success? ==> AppendsOnly(m, r.value, Request(RangingOperationName(op), [region], []))
  {
    if !IsBeaconRegion(region) then Failure(NotABeaconRegion)
    else Success(m.(trace := m.trace + [PromisedExec(RangingOperationName(op), JArr([region]), JArr([]))]))
  }

  /** `startAdvertising(region, measuredPower)`: the power is sent only when
      it is truthy, so 0, NaN and a missing value all leave it to the device. */
  function StartAdvertising(m: Manager, region: JsValue, measuredPower: JsValue): (r: Result<Manager, Exception>)
    ensures r.Success? <==> IsRegion(region)
    ensures r.Failure? ==> r.error == NotARegion
    ensures r.Success? && Truthy(measuredPower) ==>
              AppendsOnly(m, r.value, Request("startAdvertising", [region, measuredPower], []))
    ensures r.Success? && !Truthy(measuredPower) ==>
              AppendsOnly(m, r.value, Request("startAdvertising", [region], []))
  {
    var _ :- CheckRegionType(region);
    var args := if Truthy(measuredPower) then [region, measuredPower] else [region];
    Success(m.(trace := m.trace + [PromisedExec("startAdvertising", JArr(args), JArr([]))]))
  }

  datatype RegionList = MonitoredRegions | RangedRegions

  /** `getMonitoredRegions` and `getRangedRegions`: a request whose reply is
      decoded by `Regions.fromJsonArray`. */
  function GetRegions(m: Manager, which: RegionList): (r: Manager)
    ensures AppendsOnly(m, r, Request(if which == MonitoredRegions then "getMonitoredRegions" else "getRangedRegions",
                                      [], [RegionsFromJsonArray]))
  {
    var action := if which == MonitoredRegions then "getMonitoredRegions" else "getRangedRegions";
    assert FunctionsOf([JFunc(RegionsFromJsonArray)]) == [RegionsFromJsonArray];
    m.(trace := m.trace + [PromisedExec(action, JArr([]), JArr([JFunc(RegionsFromJsonArray)]))])
  }

  /** The promise of `getMonitoredRegions`/`getRangedRegions` resolves with
      the decoded list, stays pending when decoding throws, and is rejected
      with the error reply as is. */
  lemma GetRegionsSettles(m: Manager, which: RegionList, reply: Reply, user: (nat, JsValue) -> JsValue)
    ensures var request := GetRegions(m, which).trace[|m.trace|];
            Settle(request, reply, user) ==
              match reply
              case ReplyError(reason) => Rejected(reason)
              case ReplyOk(payload) =>
                if FromJsonArrayValue(payload).Success? then Resolved(FromJsonArrayValue(payload).value)
                else Pending
  {
    var request := GetRegions(m, which).trace[|m.trace|];
    assert request.route.preProcessors == [RegionsFromJsonArray];
  }

  /** A region guard never lets a request through for a non-region, whatever
      the operation: the requests before and after are the same. */
  lemma GuardsIssueNothing(m: Manager, op: RegionOperation, region: JsValue, measuredPower: JsValue)
    requires !IsRegion(region)
    ensures RegionRequest(m, op, region).Failure?
    ensures StartAdvertising(m, region, measuredPower).Failure?
    ensures forall rop :: RangingRequest(m, rop, region).Failure?
  { }
}

=== FILE: region.dfy ===
/** `Region`, the base of the region hierarchy: a region is named by a
    non-empty string identifier, checked before it is stored. */
module BaseRegion {
  import opened Wrappers
  import opened JsValues
  import opened JsErrors

  predicate IsValidIdentifier(v: JsValue) { v.JStr? && |v.s| > 0 }

  /** `Region.checkIdentifier`: non-strings (undefined, null, NaN, numbers, ...)
      are a `TypeError`, the empty string a plain `Error`. On success the
      identifier is handed back for storing. */
  function CheckIdentifier(identifier: JsValue): (r: Result<string, Exception>)
    ensures r.Success? <==> IsValidIdentifier(identifier)
    ensures r.Success? ==> JStr(r.value) == identifier
    ensures r.Failure? ==> (r.error.Kind() == TypeError <==> !IsString(identifier))
  {
    if !IsString(identifier) then Failure(IdentifierNotString(identifier))
    else if |identifier.s| == 0 then Failure(IdentifierEmpty)
    else Success(identifier.s)
  }

  /** `new Region(identifier)`: validation precedes assignment, so every base
      region that exists carries the identifier it was given, and it is not
      empty. */
  function NewRegion(identifier: JsValue): (r: Result<Region, Exception>)
    ensures r.Success? <==> IsValidIdentifier(identifier)
    ensures r.Success? ==> r.value.Base? && JStr(r.value.identifier) == identifier
    ensures r.Failure? ==> r.error.Kind() == (if IsString(identifier) then PlainError else TypeError)
  {
    var id :- CheckIdentifier(identifier);
    Success(Base(id))
  }
}

=== FILE: regions.dfy ===
/** `Regions`: turning the plain objects the native layer sends back into
    region instances, and the type guards on regions. */
module RegionCodec {
  import opened Wrappers
  import opened JsValues
  import opened JsErrors
  import opened BaseRegion
  import opened CircularRegions
  import opened BeaconRegions

  /** A non-empty string `typeName`, the condition `fromJson` insists on. */
  predicate HasTypeName(json: JsValue)
    requires !IsNullish(json)
  {
    IsString(Prop(json, "typeName")) && |Prop(json, "typeName").s| > 0
  }

  /** The regions `fromJson` can produce: constructor-valid, and a beacon
      region never carries `notifyEntryStateOnDisplay`, which the codec does
      not read. A base `Region` is never produced. */
  predicate Decodable(r: Region) {
    match r
    case Base(_) => false
    case Circular(_, _, _, _) => ValidCircular(r)
    case Beacon(_, _, _, _, notify) => ValidBeacon(r) && notify == JUndef
  }

  /** `Regions.fromJson`. Reading `typeName` of `null` or `undefined` throws;
      a missing, non-string or empty tag is a `TypeError`; the two known tags
      build the region with the constructor, whose exceptions propagate; any
      other tag gives `null` (`None`). */
  function FromJson(json: JsValue): (r: Result<Option<Region>, Exception>)
    ensures IsNullish(json) ==> r == Failure(PropertyOfNullish("typeName"))
    ensures !IsNullish(json) && !HasTypeName(json) ==> r == Failure(TypeNameMissing)
    ensures !IsNullish(json) && HasTypeName(json) && Prop(json, "typeName").s == "CircularRegion" ==>
              r == NewCircular(Prop(json, "identifier"), Prop(json, "latitude"),
                               Prop(json, "longitude"), Prop(json, "radius")).MapValue(SomeRegion)
    ensures !IsNullish(json) && HasTypeName(json) && Prop(json, "typeName").s == "BeaconRegion" ==>
              r == NewBeacon(Prop(json, "identifier"), Prop(json, "uuid"),
                             Prop(json, "major"), Prop(json, "minor"), JUndef).MapValue(SomeRegion)
    ensures !IsNullish(json) && HasTypeName(json)
            && Prop(json, "typeName").s != "CircularRegion" && Prop(json, "typeName").s != "BeaconRegion"
            ==> r == Success(None)
    ensures r.Success? && r.value.Some? ==> Decodable(r.value.value)
  {
    if IsNullish(json) then Failure(PropertyOfNullish("typeName"))
    else
      var typeName := Prop(json, "typeName");
      if !IsString(typeName) || |typeName.s| == 0 then Failure(TypeNameMissing)
      else
        var identifier := Prop(json, "identifier");
        if typeName.s == "CircularRegion" then
          var region :- NewCircular(identifier, Prop(json, "latitude"), Prop(json, "longitude"),
                                    Prop(json, "radius"));
          Success(Some(region))
        else if typeName.s == "BeaconRegion" then
          var region :- NewBeacon(identifier, Prop(json, "uuid"), Prop(json, "major"),
                                  Prop(json, "minor"), JUndef);
          Success(Some(region))
        else
          Success(None)
  }

  function SomeRegion(r: Region): Option<Region> { Some(r) }

  /** The own properties of a region instance as a plain object, the shape
      in which a region crosses the bridge and comes back. */
  function FieldsOf(r: Region): (json: JsValue)
    ensures json.JObj? && forall key :: Prop(json, key) == RegionProp(r, key)
  {
    match r
    case Base(id) => JObj(map["identifier" := JStr(id)])
    case Circular(id, lat, lon, rad) =>
      JObj(map["identifier" := JStr(id), "latitude" := lat, "longitude" := lon, "radius" := rad,
               "typeName" := JStr("CircularRegion")])
    case Beacon(id, uuid, major, minor, notify) =>
      JObj(map["identifier" := JStr(id), "uuid" := JStr(uuid), "major" := major, "minor" := minor,
               "notifyEntryStateOnDisplay" := notify, "typeName" := JStr("BeaconRegion")])
  }

  /** What decoding gives back for a region: a circular region itself, a
      beacon region without `notifyEntryStateOnDisplay`. */
  function Decoded(r: Region): Region {
    if r.Beacon? then r.(notifyEntryStateOnDisplay := JUndef) else r
  }

  /** A value that reads like the region `r` on every property. */
  lemma {:induction false} FromJsonReadsProperties(json: JsValue, r: Region)
    requires !IsNullish(json)
    requires forall key :: Prop(json, key) == RegionProp(r, key)
    ensures r.Base? ==> FromJson(json) == Failure(TypeNameMissing)
    ensures r.Circular? && ValidCircular(r) ==> FromJson(json) == Success(Some(r))
    ensures r.Beacon? && ValidBeacon(r) ==> FromJson(json) == Success(Some(Decoded(r)))
  {
    assert Prop(json, "typeName") == RegionTypeName(r);
    match r
    case Base(_) =>
    case Circular(_, _, _, _) => if ValidCircular(r) { FromJsonReadsCircular(json, r); }
    case Beacon(_, _, _, _, _) => if ValidBeacon(r) { FromJsonReadsBeacon(json, r); }
  }

  lemma FromJsonReadsCircular(json: JsValue, r: Region)
    requires !IsNullish(json) && r.Circular? && ValidCircular(r)
    requires forall key :: Prop(json, key) == RegionProp(r, key)
    ensures FromJson(json) == Success(Some(r))
  {
    assert Prop(json, "typeName") == JStr("CircularRegion");
    assert Prop(json, "identifier") == JStr(r.identifier);
    assert Prop(json, "latitude") == r.latitude;
    assert Prop(json, "longitude") == r.longitude;
    assert Prop(json, "radius") == r.radius;
  }

  lemma FromJsonReadsBeacon(json: JsValue, r: Region)
    requires !IsNullish(json) && r.Beacon? && ValidBeacon(r)
    requires forall key :: Prop(json, key) == RegionProp(r, key)
    ensures FromJson(json) == Success(Some(Decoded(r)))
  {
    assert Prop(json, "typeName") == JStr("BeaconRegion");
    assert Prop(json, "identifier") == JStr(r.identifier);
    assert Prop(json, "uuid") == JStr(r.uuid);
    assert Prop(json, "major") == r.major;
    assert Prop(json, "minor") == r.minor;
  }

  /** Round trip: the fields of a constructed region decode to that region,
      except that a beacon region loses `notifyEntryStateOnDisplay`; the
      fields of a base `Region` carry no `typeName` and are refused. */
  lemma RoundTripFields(r: Region)
    ensures r.Base? ==> FromJson(FieldsOf(r)) == Failure(TypeNameMissing)
    ensures r.Circular? && ValidCircular(r) ==> FromJson(FieldsOf(r)) == Success(Some(r))
    ensures r.Beacon? && ValidBeacon(r) ==> FromJson(FieldsOf(r)) == Success(Some(Decoded(r)))
  {
    FromJsonReadsProperties(FieldsOf(r), r);
  }

  /** Decoding an instance that is already a region rebuilds the same region
      in the same way. */
  lemma RoundTripInstance(r: Region)
    ensures r.Base? ==> FromJson(JRegion(r)) == Failure(TypeNameMissing)
    ensures r.Circular? && ValidCircular(r) ==> FromJson(JRegion(r)) == Success(Some(r))
    ensures r.Beacon? && ValidBeacon(r) ==> FromJson(JRegion(r)) == Success(Some(Decoded(r)))
  {
    FromJsonReadsProperties(JRegion(r), r);
  }

  /** Decoding is idempotent on what it produces. */
  lemma DecodeDecoded(r: Region)
    requires Decodable(r)
    ensures FromJson(JRegion(r)) == Success(Some(r))
  {
    RoundTripInstance(r);
  }

  /** A region value as a JavaScript value: `null` stands for no region. */
  function RegionOrNull(o: Option<Region>): (v: JsValue)
    ensures v.JNull? <==> o.None?
    ensures o.Some? ==> v == JRegion(o.value)
  {
    match o
    case None => JNull
    case Some(r) => JRegion(r)
  }

  /** `fromJson` applied to each element in turn; the first exception stops
      the walk and propagates. */
  function FromJsonEach(items: seq<JsValue>): (r: Result<seq<Option<Region>>, Exception>)
    ensures r.Success? <==> forall i :: 0 <= i < |items| ==> FromJson(items[i]).Success?
    ensures r.Success? ==> |r.value| == |items|
                           && forall i :: 0 <= i < |items| ==> r.value[i] == FromJson(items[i]).value
    ensures r.Failure? ==> exists i :: 0 <= i < |items| && FromJson(items[i]) == Failure(r.error)
                                       && forall j :: 0 <= j < i ==> FromJson(items[j]).Success?
  {
    if items == [] then Success([])
    else
      var head :- FromJson(items[0]);
      var tail :- FromJsonEach(items[1..]);
      assert forall i :: 1 <= i < |items| ==> items[i] == items[1..][i - 1];
      Success([head] + tail)
  }

  /** `Regions.fromJsonArray`: a non-array is a `TypeError`; otherwise the
      result lines up with the input, `null` entries for unknown tags kept. */
  function FromJsonArray(json: JsValue): (r: Result<seq<Option<Region>>, Exception>)
    ensures !IsArray(json) ==> r == Failure(ExpectedArray) && r.error.Kind() == TypeError
    ensures IsArray(json) ==> r == FromJsonEach(json.items)
  {
    if !IsArray(json) then Failure(ExpectedArray) else FromJsonEach(json.items)
  }

  /** `Regions.fromJsonArray` as the value a promise resolves with. */
  function FromJsonArrayValue(json: JsValue): (r: Result<JsValue, Exception>)
    ensures r.Success? <==> FromJsonArray(json).Success?
    ensures r.Success? ==> r.value.JArr? && |r.value.items| == |json.items|
                           && forall i :: 0 <= i < |json.items| ==>
                                r.value.items[i] == RegionOrNull(FromJson(json.items[i]).value)
  {
    var regions :- FromJsonArray(json);
    Success(JArr(seq(|regions|, i requires 0 <= i < |regions| => RegionOrNull(regions[i]))))
  }

  /** `instanceof Region`, `instanceof CircularRegion`, `instanceof BeaconRegion`. */
  predicate IsRegion(v: JsValue) { v.JRegion? }

  predicate IsCircularRegion(v: JsValue) { v.JRegion? && v.region.Circular? }

  predicate IsBeaconRegion(v: JsValue) { v.JRegion? && v.region.Beacon? }

  /** Both subclasses are regions, and no value is an instance of both. */
  lemma SubclassesOfRegion(v: JsValue)
    ensures IsCircularRegion(v) ==> IsRegion(v)
    ensures IsBeaconRegion(v) ==> IsRegion(v)
    ensures !(IsCircularRegion(v) && IsBeaconRegion(v))
  { }

  /** `Regions.checkRegionType`: returns normally exactly for region
      instances, throws a `TypeError` for anything else, plain objects with
      region fields included. */
  function CheckRegionType(region: JsValue): (r: Result<(), Exception>)
    ensures r.Success? <==> IsRegion(region)
    ensures r.Failure? ==> r.error == NotARegion && r.error.Kind() == TypeError
  {
    if !IsRegion(region) then Failure(NotARegion) else Success(())
  }

  /** A plain object shaped like a region is still refused by the type
      guard: only construction makes a region. */
  lemma FieldsAreNotARegion(r: Region)
    ensures CheckRegionType(FieldsOf(r)).Failure?
    ensures CheckRegionType(JRegion(r)).Success?
  { }
}

=== FILE: uuid_pattern.dfy ===
/** The UUID validator of `BeaconRegion`: the anchored, case-insensitive
    regular expression /^[0-9a-f]{8}-[0-9a-f]{4}-[0-9a-f]{4}-[0-9a-f]{4}-[0-9a-f]{12}$/i.

    The expression is modelled as what it is, a sequence of fixed-count atoms
    matched against the whole string, and proved equal to the positional
    reading: 36 characters, dashes at 8, 13, 18 and 23, hex digits elsewhere. */
module UuidPattern {

  /** `[0-9a-f]` under the `i` flag. Case-insensitive matching without the `u`
      flag canonicalises both sides with toUpperCase but never maps a
      non-ASCII character onto an ASCII one, so exactly the ASCII hex digits
      in either case match. */
  predicate IsHexIgnoringCase(c: char) {
    ('0' <= c <= '9') || ('a' <= c <= 'f') || ('A' <= c <= 'F')
  }

  /** One atom of the expression: `[0-9a-f]{count}` or a literal character. */
  datatype Atom = HexRun(count: nat) | Literal(c: char)

  const UuidRegex: seq<Atom> := [HexRun(8), Literal('-'), HexRun(4), Literal('-'), HexRun(4),
                                 Literal('-'), HexRun(4), Literal('-'), HexRun(12)]

  /** `^p$`: the atoms consume the whole string, left to right. Every
      quantifier is a fixed count, so no backtracking is needed. */
  predicate Matches(s: string, p: seq<Atom>)
    decreases p
  {
    if p == [] then s == []
    else match p[0]
      case HexRun(n) =>
        |s| >= n && (forall i :: 0 <= i < n ==> IsHexIgnoringCase(s[i])) && Matches(s[n..], p[1..])
      case Literal(c) => |s| > 0 && s[0] == c && Matches(s[1..], p[1..])
  }

  /** What a single character position of a pattern accepts. */
  datatype CharClass = HexDigit | Exactly(c: char)

  predicate Accepts(k: CharClass, c: char) {
    match k
    case HexDigit => IsHexIgnoringCase(c)
    case Exactly(d) => c == d
  }

  /** The pattern expanded to one class per character position. */
  function Positions(p: seq<Atom>): seq<CharClass>
    decreases p
  {
    if p == [] then []
    else match p[0]
      case HexRun(n) => seq(n, _ => HexDigit) + Positions(p[1..])
      case Literal(c) => [Exactly(c)] + Positions(p[1..])
  }

  lemma {:induction false} MatchesIffPositions(s: string, p: seq<Atom>)
    ensures Matches(s, p) <==>
            |s| == |Positions(p)| && forall i :: 0 <= i < |s| ==> Accepts(Positions(p)[i], s[i])
    decreases p
  {
    if p != [] {
      var rest := Positions(p[1..]);
      match p[0]
      case HexRun(n) =>
        if |s| >= n {
          MatchesIffPositions(s[n..], p[1..]);
          var ps := Positions(p);
          assert ps == seq(n, _ => HexDigit) + rest;
          assert forall i :: 0 <= i < n ==> ps[i] == HexDigit;
          assert forall i :: n <= i < |ps| ==> ps[i] == rest[i - n];
          if |s| == |ps| && forall i :: 0 <= i < |s| ==> Accepts(ps[i], s[i]) {
            assert forall i :: 0 <= i < |s[n..]| ==> Accepts(rest[i], s[n..][i]) by {
              forall i | 0 <= i < |s[n..]| ensures Accepts(rest[i], s[n..][i]) {
                assert Accepts(ps[i + n], s[i + n]);
              }
            }
          }
        }
      case Literal(c) =>
        if |s| > 0 {
          MatchesIffPositions(s[1..], p[1..]);
          var ps := Positions(p);
          assert ps == [Exactly(c)] + rest;
          if |s| == |ps| && forall i :: 0 <= i < |s| ==> Accepts(ps[i], s[i]) {
            assert Accepts(ps[0], s[0]);
            assert forall i :: 0 <= i < |s[1..]| ==> Accepts(rest[i], s[1..][i]) by {
              forall i | 0 <= i < |s[1..]| ensures Accepts(rest[i], s[1..][i]) {
                assert Accepts(ps[i + 1], s[i + 1]);
              }
            }
          }
        }
    }
  }

  predicate IsDashPosition(i: int) { i == 8 || i == 13 || i == 18 || i == 23 }

  /** The positional reading of a canonical UUID. */
  predicate UuidShape(s: string) {
    |s| == 36 &&
    forall i :: 0 <= i < 36 ==> if IsDashPosition(i) then s[i] == '-' else IsHexIgnoringCase(s[i])
  }

  function HexPositions(n: nat): seq<CharClass> { seq(n, _ => HexDigit) }

  lemma UuidRegexPositions()
    ensures |Positions(UuidRegex)| == 36
    ensures forall i :: 0 <= i < 36 ==>
              Positions(UuidRegex)[i] == if IsDashPosition(i) then Exactly('-') else HexDigit
  {
    var p := UuidRegex;
    var dash := [Exactly('-')];
    assert Positions(p[9..]) == [];
    assert Positions(p[8..]) == HexPositions(12) by { assert p[8..][1..] == p[9..]; }
    assert Positions(p[7..]) == dash + HexPositions(12) by { assert p[7..][1..] == p[8..]; }
    assert Positions(p[6..]) == HexPositions(4) + dash + HexPositions(12) by { assert p[6..][1..] == p[7..]; }
    assert Positions(p[5..]) == dash + HexPositions(4) + dash + HexPositions(12) by { assert p[5..][1..] == p[6..]; }
    assert Positions(p[4..]) == HexPositions(4) + dash + HexPositions(4) + dash + HexPositions(12)
      by { assert p[4..][1..] == p[5..]; }
    assert Positions(p[3..]) == dash + HexPositions(4) + dash + HexPositions(4) + dash + HexPositions(12)
      by { assert p[3..][1..] == p[4..]; }
    assert Positions(p[2..]) == HexPositions(4) + dash + HexPositions(4) + dash + HexPositions(4) + dash
                                + HexPositions(12)
      by { assert p[2..][1..] == p[3..]; }
    assert Positions(p[1..]) == dash + HexPositions(4) + dash + HexPositions(4) + dash + HexPositions(4)
                                + dash + HexPositions(12)
      by { assert p[1..][1..] == p[2..]; }
    var ps := Positions(p);
    assert ps == HexPositions(8) + dash + HexPositions(4) + dash + HexPositions(4) + dash + HexPositions(4)
                 + dash + HexPositions(12);
  }

  /** The regular expression accepts exactly the strings of UUID shape. */
  lemma MatchesUuidRegexIffShape(s: string)
    ensures Matches(s, UuidRegex) <==> UuidShape(s)
  {
    MatchesIffPositions(s, UuidRegex);
    UuidRegexPositions();
    var ps := Positions(UuidRegex);
    if UuidShape(s) {
      forall i | 0 <= i < |s| ensures Accepts(ps[i], s[i]) { }
    }
    if Matches(s, UuidRegex) {
      forall i | 0 <= i < 36
        ensures if IsDashPosition(i) then s[i] == '-' else IsHexIgnoringCase(s[i])
      {
        assert Accepts(ps[i], s[i]);
      }
    }
  }
}

=== FILE: wrappers.dfy ===
/** Failure-compatible wrappers used throughout the model: `Option` for values
    that may be absent (JavaScript `null`, Java `null`) and `Result` for
    operations that may throw. */
module Wrappers {

  datatype Option<+T> = None | Some(value: T) {
    predicate IsFailure() { None? }

    function PropagateFailure<U>(): Option<U>
      requires None?
    {
      None
    }

    function Extract(): T
      requires Some?
    {
      value
    }
  }

  /** The outcome of a call that either returns a value or throws an exception. */
  datatype Result<+T, +E> = Success(value: T) | Failure(error: E) {
    predicate IsFailure() { Failure? }

    function PropagateFailure<U>(): Result<U, E>
      requires Failure?
    {
      Failure(error)
    }

    function Extract(): T
      requires Success?
    {
      value
    }

    function MapValue<U>(f: T -> U): Result<U, E>
    {
      match this
      case Success(v) => Success(f(v))
      case Failure(e) => Failure(e)
    }
  }
}
